=== FILE: README.md ===
# Invisible Travel: device bookkeeping and stream framing

This project models the bookkeeping core of the Invisible Travel iOS app in
Dafny. It covers five parts:

- **Headphone registry.** The Bluetooth Low Energy manager (`BluetoothManager`)
  keeps a capped list of discovered audio peripherals and drives the
  disconnected → connecting → connected state machine. It guards each
  connection attempt with a 10-second watchdog timer.
- **Alternate paths.** The audio-name filter, the gated discovery entry point,
  `immediateConnect` and `forceDisconnect`, and the status labels.
- **Glasses client.** The WebSocket client (`WSManager`) covers connect and
  disconnect, the guarded command send, the bounded reconnect counter,
  classification of incoming text, and JPEG reassembly. Reassembly cuts
  `FF D8 … FF D9` frames out of a byte buffer. There is also the earlier
  revision of the client.
- **UUID scanner.** A stand-alone scanner keeps the first sighting of every
  peripheral. It lists them strongest signal first, narrowed by a search text.
- **Message log.** Newest first, capped at 500 entries, plus the display
  names of the four message kinds.

Objects whose fields the app updates in place are Dafny classes. Their
methods state the new state as a function of the old one. The operations
they share are pure functions (`Discover`, `AppendCapped`, `Timeout`,
`ArmAsWritten`, `ConnectedAsWritten`, `ExtractFrames` with the `AsWritten`
search, `Filtered`, `Retain`), and the lemmas about those functions carry the
properties.

The classes follow the app's code as written, defects included. For each
defect listed under "## Findings" a corrected function stands beside the
one the classes use, with the evidently intended property proved about it:
`Arm` (invalidate the replaced watchdog, then arm), `ConnectedAndDisarmed`
(cancel the watchdog on success) and `ExtractFrames` with the `Corrected`
search (look for the end marker only after the start marker). The app
itself never calls these corrected versions.

Side effects become ghost logs that the methods append to:

- CoreBluetooth calls go to `actions`.
- Starscream socket calls go to `transport`.
- Calls on the WebSocket delegate go to `calls`.

Timers, dispatch-queue blocks and delegate callbacks are event methods
applied one after another. A timer is a token in a timer table. The table
records which tokens are still live, meaning scheduled and not invalidated,
and which device each token was armed for. A table is consistent (`Tidy`)
when every live timer is the one the dictionary records for its device.
The app's own arming can break this, so the manager's invariant does not
include it, and the rows below say where a property needs it.

The following values are parameters:

- the current time;
- whether a string parses as a URL;
- JSON encoding of a command and decoding of a status message;
- whether bytes decode as an image;
- log entry identifiers.

Modules, one per source file plus helpers:

| module | file | models |
|---|---|---|
| `Wrappers` | `wrappers.dfy` | `Option`, `Result` |
| `Text` | `text.dfy` | lowercasing, substring search, decimal rendering and parsing |
| `Ordering` | `ordering.dfy` | descending sort by an integer key, distinct identifiers |
| `Timers` | `timers.dfy` | the timer table behind `connectionTimeoutTimers` |
| `BleDevice` | `ble_device.dfy` | `BluetoothDevice`, `SignalStrengthIcon.signalLevel` |
| `BleCore` | `ble_core.dfy` | `DeviceFilterEngine`, the discovery gate, `DeviceStatusViewBuilder` |
| `BleRegistry` | `ble_registry.dfy` | `BluetoothManager` of `BLEBase.swift` / `BLE.swift` and its `BLECore.swift` extension |
| `Messages` | `messages.dfy` | `WSDataType`, `StatusMessage` |
| `JpegFrames` | `jpeg_frames.dfy` | `findFrameRange` and the frames `processBuffer` emits |
| `StreamSession` | `stream_session.dfy` | `WSManager` of `Managers/WSManager.swift`, `DeviceInfoCommand` |
| `StreamSessionEarly` | `stream_session_early.dfy` | `WSManager` of `WebSocketCore/WSManager.swift` |
| `UuidScanner` | `uuid_scanner.dfy` | the `BluetoothManager` of the UUIDDDD app |
| `Logging` | `log_manager.dfy` | `LogManager`, `LogEntry` |

`Invisible_Travel/BLE.swift` repeats lines 19-290 of
`Invisible_Travel/BLEBase.swift` line for line. The two differ in their
comments and in the text of five diagnostic `print` calls: Chinese in
`BLE.swift`, English in `BLEBase.swift`, at lines 160, 162, 173, 244 and 249
of each. The code is otherwise the same and the prints are not modelled, so
one model covers both, and some rows below cite the `BLE.swift` copy.

## Model

| member | source | states |
|---|---|---|
| BleDevice.NewDevice | Invisible_Travel/BLEBase.swift:34-40 | a new device takes the peripheral's identifier, its name or "Unknown Device", the given signal strength, state disconnected and no connection attempt |
| BleDevice.SignalLevelMonotone | Invisible_Travel/BLEBase.swift:462-468 | the signal icon never weakens as the signal grows; it is the slashed grey icon exactly below -80, the full green one exactly above -60, orange in between |
| BleCore.ApplyNameFilter | Invisible_Travel/BLECore.swift:15-20 | true exactly when the lowercased name contains "audio" or "headset" somewhere |
| BleCore.NameFilterIgnoresCase | Invisible_Travel/BLECore.swift:15 | the filter gives the same answer for a name and its lowercase form |
| BleCore.ForwardsDiscovery | Invisible_Travel/BLECore.swift:77-84 | a sighting is forwarded exactly when the peripheral has a name, the name passes the filter and the signal is at least -100 |
| BleCore.StatusDisplayDistinct | Invisible_Travel/BLECore.swift:123-132 | connected is green, connecting orange, anything else grey, and the three labels differ from one another |
| BleRegistry.IndexOf | Invisible_Travel/BLEBase.swift:185 | `firstIndex(where:)`: the first position holding the identifier, or none when no entry has it |
| BleRegistry.UpdateEntry | Invisible_Travel/BLEBase.swift:252-259 | writing through the found index changes only that identifier's entry and nothing for an unknown identifier |
| BleRegistry.DiscoverRejectsWeakSignal | Invisible_Travel/BLEBase.swift:178-191 | a reading below -100 leaves the list as it was; a reading of -100 or more leaves the device listed when the list has room |
| BleRegistry.DiscoverRefreshesOnlyRssi | Invisible_Travel/BLEBase.swift:185-186 | a re-sighting keeps the count and changes only the signal strength of that one entry, all other entries untouched |
| BleRegistry.AppendCappedKeepsTen | Invisible_Travel/BLEBase.swift:193-201 | at most ten entries; below the cap the device is appended; at the cap the result is sorted strongest first and is the eleven candidates minus exactly one whose signal is the weakest |
| BleRegistry.AppendCappedKeepsIdsUnique | Invisible_Travel/BLE.swift:193-201 | appending an unlisted device and trimming keeps identifiers unique |
| BleRegistry.DiscoverKeepsListValid | Invisible_Travel/BLE.swift:178-201 | discovery keeps the list within ten entries with unique identifiers |
| BleRegistry.SetStateStampsOnlyConnecting | Invisible_Travel/BLEBase.swift:252-259 | an unknown identifier changes nothing; a known one gets the new state, with an attempt time exactly when the state is connecting, and that time is the current one, name and signal kept |
| BleRegistry.Timeout | Invisible_Travel/BLEBase.swift:222-234 | a watchdog firing leaves every live timer drawn before the next fresh one |
| BleRegistry.TimeoutDisconnects | Invisible_Travel/BLE.swift:222-234 | a live watchdog for a listed device sets exactly that device to disconnected, every other entry unchanged and the list as long as before, and removes its dictionary entry; only the fired timer stops, so a newer watchdog for the same device stays live |
| BleRegistry.TimeoutForUnlistedDevice | Invisible_Travel/BLEBase.swift:224-225 | a watchdog for a device no longer listed changes no device and leaves the dictionary alone |
| BleRegistry.TimeoutKeepsTidy | Invisible_Travel/BLEBase.swift:222-234 | firing a watchdog keeps the timer table consistent: every live timer is the one recorded for its device |
| BleRegistry.ConnectedAsWritten | Invisible_Travel/BLEBase.swift:236-240 | the success callback as written: the listed entry becomes connected with no attempt time, all other entries kept, and the timer table untouched |
| BleRegistry.ConnectedAndDisarmed | Invisible_Travel/BLEBase.swift:236-240 | the success callback as intended: the same write to the list, the id's timer entry gone, and from a consistent table no watchdog live for the device |
| BleRegistry.WatchdogDropsConnectionAsWritten | Invisible_Travel/BLEBase.swift:236-240 | as written, a connection that succeeds is still followed by its watchdog, which sets the connected device back to disconnected |
| BleRegistry.RetryStacksWatchdogsAsWritten | Invisible_Travel/BLEBase.swift:215-220 | connecting, failing and connecting again leaves two live watchdogs for the device, and the older one sets the retried device back to disconnected |
| BleRegistry.ConnectedSurvivesWatchdog | Invisible_Travel/BLEBase.swift:215-240 | with the watchdog cancelled on success, no timer that fires later can change the connected device's state |
| BleRegistry.BluetoothManager.constructor | Invisible_Travel/BLEBase.swift:46-59 | an empty list, not scanning, no timers, authorization not determined |
| BleRegistry.BluetoothManager.StartScan | Invisible_Travel/BLE.swift:65-74 | radio on: the list is emptied, scanning set, the audio-service scan and the 3-second stop issued; radio off or unauthorized: list and flag unchanged and only the handler alerted |
| BleRegistry.BluetoothManager.StopScan | Invisible_Travel/BLE.swift:76-79 | discovery stops and the scanning flag is always cleared, nothing else changes |
| BleRegistry.BluetoothManager.ResetScanningState | Invisible_Travel/BLEBase.swift:273-276 | the list is emptied and the scanning flag set |
| BleRegistry.BluetoothManager.HandleBluetoothStateUpdate | Invisible_Travel/BLEBase.swift:148-176 | the radio state and authorization are recorded; the handler is alerted for a denied radio and for a radio switched off, and for nothing else |
| BleRegistry.BluetoothManager.ProcessDiscoveredPeripheral | Invisible_Travel/BLEBase.swift:178-191 | the list becomes the discovery function of the old list, and stays within ten unique entries |
| BleRegistry.BluetoothManager.AddNewDevice | Invisible_Travel/BLEBase.swift:193-201 | the list becomes the capped append of the new device, nothing else changes |
| BleRegistry.BluetoothManager.ToggleConnection | Invisible_Travel/BLEBase.swift:81-90 | no peripheral: nothing; disconnected: connecting, stamped, connect call issued, a new watchdog recorded under the id while the one it replaces stays live; otherwise: cancel call issued, the id's timer entry removed and invalidated, the device's state unchanged |
| BleRegistry.BluetoothManager.BeginConnectionProcess | Invisible_Travel/BLEBase.swift:203-208 | the device becomes connecting with the attempt time, a plain connect call is issued and a new watchdog armed without stopping the one it replaces |
| BleRegistry.BluetoothManager.CancelConnection | Invisible_Travel/BLE.swift:210-213 | the cancel call is issued and the id's timer entry removed and invalidated; with no entry the dictionary is unchanged |
| BleRegistry.BluetoothManager.StartConnectionTimer | Invisible_Travel/BLEBase.swift:215-220 | a fresh timer is recorded under the id and is live; the timers already live for the device stay live, so its live watchdogs are the old ones plus the new one |
| BleRegistry.BluetoothManager.HandleConnectionTimeout | Invisible_Travel/BLEBase.swift:222-234 | the state becomes the timeout function of the old state; for a listed device with a peripheral the cancel call is issued |
| BleRegistry.BluetoothManager.UpdateDeviceState | Invisible_Travel/BLEBase.swift:252-260 | the listed entry gets the new state and an attempt time exactly when connecting |
| BleRegistry.BluetoothManager.HandleSuccessfulConnection | Invisible_Travel/BLEBase.swift:236-240 | the device becomes connected, the timer table is untouched so its watchdog stays armed, and the audio service lookup is issued |
| BleRegistry.BluetoothManager.HandleConnectionLoss | Invisible_Travel/BLEBase.swift:242-250 | a failed connection or a disconnection sets the device to disconnected and clears its attempt time |
| BleRegistry.BluetoothManager.EnhancedProcessDiscoveredPeripheral | Invisible_Travel/BLECore.swift:72-85 | a sighting reaches discovery exactly when the discovery gate forwards it; otherwise nothing changes |
| BleRegistry.BluetoothManager.ImmediateConnect | Invisible_Travel/BLECore.swift:88-102 | no peripheral: nothing; otherwise the recorded watchdog is invalidated before a new one is armed, the device is connecting and stamped, and a connect asking for disconnection notice is issued; from a consistent timer table exactly one watchdog is live for the device |
| BleRegistry.BluetoothManager.ForceDisconnect | Invisible_Travel/BLECore.swift:105-117 | no peripheral: nothing; otherwise the recorded watchdog is invalidated and its entry kept (from a consistent table none is live for the device), the cancel call is issued, and only the matching entry becomes disconnected |
| Timers.ArmAsWritten | Invisible_Travel/BLEBase.swift:215-220 | the new timer is recorded under the id and live; other ids keep their entries |
| Timers.ArmAsWrittenAddsLive | Invisible_Travel/BLEBase.swift:215-220 | arming as written adds the new timer to those live for the device and stops none |
| Timers.Invalidate | Invisible_Travel/BLECore.swift:92 | `connectionTimeoutTimers[id]?.invalidate()`: the entry stays and the recorded timer stops; from a consistent table no timer for the id is live |
| Timers.Arm | Invisible_Travel/BLECore.swift:92-101 | invalidate, then arm: the new timer is recorded and live, other ids keep their entries |
| Timers.Cancel | Invisible_Travel/BLEBase.swift:212 | `removeValue(forKey:)?.invalidate()`: the entry is gone and the recorded timer stops, other entries kept; no entry means no change; from a consistent table no timer for the id is live |
| Timers.DropEntry | Invisible_Travel/BLEBase.swift:228 | `removeValue(forKey:)` without invalidating: the entry is gone, live timers unchanged |
| Timers.Fire | Invisible_Travel/BLEBase.swift:216-217 | a non-repeating timer that fires is no longer live; the dictionary is untouched |
| Timers.ArmKeepsSingleLive | Invisible_Travel/BLECore.swift:92-101 | after arming with invalidation, the table stays consistent and exactly one timer is live for the device |
| Timers.ArmAsWrittenStacksTimers | Invisible_Travel/BLEBase.swift:215-220 | re-arming without invalidation leaves the replaced timer live beside the new one |
| Ordering.SortDesc | Invisible_Travel/BLEBase.swift:198 | the sorted list is a permutation of its input, keys never increasing |
| Ordering.DropWeakest | Invisible_Travel/BLEBase.swift:198-199 | removing the last element of a descending permutation removes exactly one element, one with the smallest key, and leaves the rest descending |
| Ordering.DistinctKeysOfSubMultiset | UUIDDDD/UUIDDDD/UUIDDDD.swift:54-58 | sorting and filtering never make an identifier appear twice |
| Text.Contains | UUIDDDD/UUIDDDD/UUIDDDD.swift:58 | `contains`: true exactly when the needle occurs at some position |
| Text.ParseNatToString | Invisible_Travel/Managers/LogManager.swift:31 | the decimal form of a count reads back as that count |
| Messages.DescriptionNamesKind | Invisible_Travel/Models/WSDataType.swift:14-21 | status is "Status", plain text "Text", a JPEG frame "VideoFrame", raw data "Binary"; two messages share a name exactly when they are of the same kind |
| JpegFrames.FindFrameRangeAsWritten | Invisible_Travel/Managers/WSManager.swift:57-64 | a range exactly when the first FF D9 starts after the end of the first FF D8; it runs from the first FF D8 to just past the first FF D9 |
| JpegFrames.FirstMarkerFrom | Invisible_Travel/Managers/WSManager.swift:58-59 | `Data.range(of:)`: the first position at or after the start where the marker begins; none when it begins nowhere there |
| JpegFrames.FindFrameRangeFindsFirstImage | Invisible_Travel/Managers/WSManager.swift:57-64 | the corrected search returns the first FF D8 up to just past the first FF D9 after it; none exactly when no FF D9 follows the first FF D8 |
| JpegFrames.FindFrameRangeExtendsAsWritten | Invisible_Travel/Managers/WSManager.swift:57-64 | whenever the search as written finds a range, the corrected search finds the same one |
| JpegFrames.StallsAsWritten | Invisible_Travel/Managers/WSManager.swift:49-64 | once the buffer holds an FF D9 that no FF D8 begins more than two bytes before, the search as written finds nothing in it and in anything appended to it, so `processBuffer` emits nothing and keeps the buffer |
| JpegFrames.EarlyEndMarkerStallsAsWritten | Invisible_Travel/Managers/WSManager.swift:49-64 | an FF D9 before the first FF D8, anywhere in the buffer, makes the search as written fail whatever bytes are appended, so `processBuffer` emits nothing; the corrected search finds the frame in FF D9 FF D8 00 FF D9 |
| JpegFrames.StartThenEndStallsAsWritten | Invisible_Travel/Managers/WSManager.swift:49-64 | the FIRST FF D8 of the buffer directly followed by FF D9 makes the search as written fail whatever bytes are appended, so `processBuffer` emits nothing; the corrected search finds the image in FF D8 FF D9 00 FF D9 |
| JpegFrames.ExtractFrames | Invisible_Travel/Managers/WSManager.swift:49-55 | repeating the search until it finds nothing leaves a buffer in which it finds nothing, never longer than the original |
| JpegFrames.ExtractedFramesAreImages | Invisible_Travel/Managers/WSManager.swift:49-64 | every frame `processBuffer` emits starts with FF D8, ends with FF D9, has a byte between them and holds no other FF D9 anywhere; with the corrected search, none after the start marker |
| JpegFrames.ExtractFramesSplitsBuffer | Invisible_Travel/Managers/WSManager.swift:50-53 | putting each emitted frame back where it was cut out rebuilds the original buffer byte for byte, in order; the frames and the rest add up to its length |
| JpegFrames.ExtractConcatenatedFrames | Invisible_Travel/Managers/WSManager.swift:49-64 | images sent back to back come out one by one, in order, leaving an empty buffer: with the search as written when no image holds FF D9 before its end marker, with the corrected one when none holds it after its start marker |
| StreamSession.Classify | Invisible_Travel/Managers/WSManager.swift:66-73 | text that decodes as a status is that status; any other text is plain text carrying the original string |
| StreamSession.DisconnectMessageNamesCode | Invisible_Travel/Managers/WSManager.swift:201 | the disconnection message is "Disconnected (", the close code in decimal, ": " and the reason, and the code reads back from it |
| StreamSession.NextReconnectBounded | Invisible_Travel/Managers/WSManager.swift:218-224 | the counter never passes the maximum; it moves up by one, with a delay of 2 to its new value, exactly when it was below the maximum |
| StreamSession.ReconnectDelaysDouble | Invisible_Travel/Managers/WSManager.swift:218-224 | disconnections in a row schedule doubling delays, one per remaining attempt, then nothing |
| StreamSession.ThreeRetries | Invisible_Travel/Managers/WSManager.swift:218-224 | with a maximum of three, the delays are 2, 4 and 8 seconds |
| StreamSession.RawValueRoundTrip | Invisible_Travel/Managers/WSManager.swift:231-235 | each action's raw value decodes back to it, and only the three raw values decode |
| StreamSession.TruncateToInt | Invisible_Travel/Managers/WSManager.swift:244-245 | `Int(CGFloat)` drops the fraction, rounding toward zero |
| StreamSession.DeviceInfoCommandSize | Invisible_Travel/Managers/WSManager.swift:241-247 | the command keeps its action and has a width and a height exactly when a resolution is given, each that dimension with its fraction dropped toward zero, for positive and negative sizes alike |
| StreamSession.WSManager.constructor | Invisible_Travel/Managers/WSManager.swift:25-35 | no socket, not connected, no error, no delegate, an empty buffer, no reconnect attempts, a maximum of three |
| StreamSession.WSManager.Connect | Invisible_Travel/Managers/WSManager.swift:96-123 | the old socket is closed; a bad URL records "Invalid URL: …" and installs no socket or delegate; otherwise a fresh socket is opened with a 10-second timeout and the delegate set |
| StreamSession.WSManager.Disconnect | Invisible_Travel/Managers/WSManager.swift:125-133 | no socket, not connected, no delegate; a second call closes nothing |
| StreamSession.WSManager.SendCommand | Invisible_Travel/Managers/WSManager.swift:139-155 | while not connected nothing is written and the not-connected error is recorded; otherwise the encoded command is written, or "Encode failed: …" recorded |
| StreamSession.WSManager.HandleConnected | Invisible_Travel/Managers/WSManager.swift:190-196 | connected, and the error reset to the empty string |
| StreamSession.WSManager.ScheduleReconnect | Invisible_Travel/Managers/WSManager.swift:218-224 | below the maximum the counter goes up by one and a reopen is due after 2 to the counter seconds; at the maximum nothing changes |
| StreamSession.WSManager.ReconnectTimerFired | Invisible_Travel/Managers/WSManager.swift:221-223 | when the reconnection delay has passed, the current socket, if there is one, is asked to connect again; nothing else changes |
| StreamSession.WSManager.HandleDisconnected | Invisible_Travel/Managers/WSManager.swift:198-205 | not connected, the disconnection message recorded, and a reconnection scheduled |
| StreamSession.WSManager.HandleTextMessage | Invisible_Travel/Managers/WSManager.swift:66-73 | exactly one delegate call, carrying the classified message, when a delegate is set |
| StreamSession.WSManager.HandleBinaryData | Invisible_Travel/Managers/WSManager.swift:207-215 | bytes that are an image go to the delegate as a video frame; others record "Invalid image data received" |
| StreamSession.WSManager.DidReceive | Invisible_Travel/Managers/WSManager.swift:166-186 | each event has its handler's effect: connected sets the flag and clears the error; disconnected records the message, moves the counter and schedules the reopen without a delegate call; text goes to the delegate classified; image data goes to the delegate, other data records the error; an error records "WebSocket error: …" or "Unknown", leaving the flag alone; other events change nothing |
| StreamSession.WSManager.EmitFrame | Invisible_Travel/Managers/WSManager.swift:51-53 | one pass of the loop: the delegate is sent the bytes of the range, and exactly those bytes are removed from the buffer |
| StreamSession.WSManager.ProcessBuffer | Invisible_Travel/Managers/WSManager.swift:49-64 | the buffer and the frames delivered are what repeating the search as written gives for the old buffer, each frame delivered to the delegate in order |
| StreamSessionEarly.WSManager.constructor | Invisible_Travel/WebSocketCore/WSManager.swift:23-41 | no socket, not connected, no error, no delegate, no socket calls yet |
| StreamSessionEarly.WSManager.Connect | Invisible_Travel/WebSocketCore/WSManager.swift:47-74 | the old socket is closed; a bad URL records "Invalid URL: …" and installs no socket or delegate; otherwise a new socket and the delegate are installed |
| StreamSessionEarly.WSManager.Disconnect | Invisible_Travel/WebSocketCore/WSManager.swift:76-84 | no socket, not connected, no delegate; a second call closes nothing |
| StreamSessionEarly.WSManager.SendCommand | Invisible_Travel/WebSocketCore/WSManager.swift:90-106 | while not connected nothing is written and the not-connected error is recorded |
| StreamSessionEarly.WSManager.HandleConnected | Invisible_Travel/WebSocketCore/WSManager.swift:141-147 | connected, and the error reset to the empty string |
| StreamSessionEarly.WSManager.DidReceive | Invisible_Travel/WebSocketCore/WSManager.swift:117-137 | a connected event sets the flag and clears the error; an error event records "WebSocket error: …" and keeps the flag |
| UuidScanner.Entries | UUIDDDD/UUIDDDD/UUIDDDD.swift:16 | a dictionary's pairs, each key once, exactly the stored pairs |
| UuidScanner.Keep | UUIDDDD/UUIDDDD/UUIDDDD.swift:58 | `filter`: exactly the matching pairs, none added |
| UuidScanner.KeepKeepsOrder | UUIDDDD/UUIDDDD/UUIDDDD.swift:57-58 | filtering a sorted listing leaves it sorted |
| UuidScanner.FilteredDevicesSpec | UUIDDDD/UUIDDDD/UUIDDDD.swift:53-60 | the listing is sorted strongest first, names each device once, and holds exactly the stored devices whose lowercased name contains the lowercased search text; an empty search text keeps them all |
| UuidScanner.BluetoothManager.constructor | UUIDDDD/UUIDDDD/UUIDDDD.swift:16-23 | no devices, status "未連接", empty search text |
| UuidScanner.BluetoothManager.StartScanning | UUIDDDD/UUIDDDD/UUIDDDD.swift:34-37 | the dictionary is emptied and a scan of all services without duplicates issued |
| UuidScanner.BluetoothManager.CentralManagerDidUpdateState | UUIDDDD/UUIDDDD/UUIDDDD.swift:25-32 | radio on: scan as above; otherwise the status becomes "❌ 藍牙未開啟" and no scan starts |
| UuidScanner.BluetoothManager.DidDiscover | UUIDDDD/UUIDDDD/UUIDDDD.swift:39-50 | only the first sighting of an identifier is stored, under "未知設備" when nameless; later sightings change nothing, not even the signal strength |
| UuidScanner.BluetoothManager.FilteredDevices | UUIDDDD/UUIDDDD/UUIDDDD.swift:53-60 | the listing shown is sorted, without repeated identifiers, and exactly the matching stored devices |
| Logging.RetainKeepsNewest | Invisible_Travel/Managers/LogManager.swift:53-57 | at most 500 entries remain, a prefix of the log in order; 500 or fewer are left alone; more are cut to exactly 500 |
| Logging.RetainAbsorbs | Invisible_Travel/Managers/LogManager.swift:46-57 | trimming after each insertion keeps the same entries as trimming all additions at once |
| Logging.FrameMetaDataNamesSize | Invisible_Travel/Managers/LogManager.swift:31 | the "size" metadata is the byte count in decimal followed by " bytes", and the count reads back from it |
| Logging.LogManager.constructor | Invisible_Travel/Managers/LogManager.swift:23 | an empty log |
| Logging.LogManager.AddEntry | Invisible_Travel/Managers/LogManager.swift:46-51 | the new entry is first, the log holds the newest 500 of all entries ever added |
| Logging.LogManager.ApplyRetentionPolicy | Invisible_Travel/Managers/LogManager.swift:53-57 | the log becomes its first 500 entries when longer, otherwise it is unchanged |
| Logging.LogManager.Log | Invisible_Travel/Managers/LogManager.swift:37-44 | one entry of the given kind and direction (received by default) without metadata goes first |
| Logging.LogManager.LogVideoFrame | Invisible_Travel/Managers/LogManager.swift:26-34 | one received JPEG frame entry whose "size" metadata names its byte count goes first |

## Left out

- Radio, sockets and timers. CoreBluetooth, Starscream, URLSession, real timers and dispatch queues are not modelled; the effects the app asks of them are recorded as abstract actions. Each queued block runs at once, one event after another, so interleavings of the serial and main queues are not modelled.
- Device sharing. `BluetoothDevice` is a class shared by reference in the app. The model identifies a device by its identifier: `Current` reads the listed entry, and writes go to the listed entry. A copy that is no longer listed but still held by a caller is not updated.
- The weak peripheral reference. It becomes the flag `hasPeripheral`, which never clears, since ARC is not modelled.
- State restoration. `willRestoreState` (Invisible_Travel/BLEBase.swift:99-108) never runs: the restore options built at :141-144 are not passed to `CBCentralManager` at :145.
- Service and characteristic discovery on a connected peripheral (Invisible_Travel/BLEBase.swift:124-136). Only the service lookup call is recorded.
- Diagnostic `print` calls, including the restricted-authorization branch at Invisible_Travel/BLEBase.swift:172-173.
- `ScanScheduler`, `HapticFeedbackController` and the SwiftUI views of the BLE files. They are presentation or timing only.
- Swift's `sort` is not stable. `SortDesc` is a stable insertion sort, which produces one of the orders Swift may produce; the model does not cover the other orders for equal signal strengths.
- The order of a Swift dictionary is unspecified, so `UuidScanner.Entries` is left unordered.
- Text handling. `lowercased()` and the case-insensitive regular expression fold Unicode letters; `Text.Lower` folds only ASCII A-Z. `ApplyNameFilter` models the pattern "(?i)audio|headset" as two substring searches.
- Parameters. URL parsing, JSON encoding and decoding, `UIImage(data:)`, `Date()` and `UUID()` are parameters of the operations that use them.
- `StreamSession.TruncateToInt`: `Int(CGFloat)` traps on a NaN, an infinite or an out-of-range value; this is not modelled.
- The delay. `pow(2, Double(n))` is a floating-point delay; the model uses the integer 2^n.
- `reconnectAttempts` and `maxReconnectAttempts` are used but not declared in Invisible_Travel/Managers/WSManager.swift. They are fields, starting at 0 and 3.
- `handleConnected` does not reset `reconnectAttempts`, so the counter only ever grows. The model follows the code.
- Private members used across files. The extension in Invisible_Travel/BLECore.swift uses members that Invisible_Travel/BLEBase.swift declares private: `centralManager` (:51), `connectionTimeoutTimers` (:53), and `processDiscoveredPeripheral` and `startConnectionTimer` in the `private extension` at :139. Swift does not allow this from another file. The model treats them as accessible, as the extension evidently intends.
- Argument order. Invisible_Travel/WebSocketCore/WSManager.swift:61-65 passes `timeoutInterval:` before `cachePolicy:` to `URLRequest`, which Swift rejects. The model installs the socket as intended; the request's timeout is not modelled for this revision.
- `connectionState` (Invisible_Travel/Managers/WSManager.swift:31) is never assigned and is not modelled.
- `didReceive(event:)` at Invisible_Travel/Managers/WSManager.swift:39-47 is not the Starscream delegate method. It repeats the text and binary cases of the delegate method, and is not modelled separately.
- Discovery is not wired. Neither Invisible_Travel/BLEBase.swift nor Invisible_Travel/BLE.swift implements `centralManager(_:didDiscover:advertisementData:rssi:)`. `processDiscoveredPeripheral` (Invisible_Travel/BLEBase.swift:178) is called only from `enhancedProcessDiscoveredPeripheral` (Invisible_Travel/BLECore.swift:72-84), which nothing calls, and the only other append (:106) is in `willRestoreState`, which never runs. So `discoveredDevices` stays empty in the app as shipped. The model gives the registry as it behaves once sightings reach `processDiscoveredPeripheral`, and the two BLE findings below assume that.
- `processBuffer` is never called, and nothing appends to `jpegBuffer`. The model gives the reassembler as its own operation on whatever the buffer holds.
- In Invisible_Travel/WebSocketCore/WSManager.swift, `didReceive` calls handlers for disconnection, text and binary data that the file does not define. `StreamSessionEarly.WSManager.DidReceive` treats those events as changing nothing.
- Logging entries. `logVideoFrame` calls `logEntry` (not defined) with a `.jpegFrame` case (the enum spells it `jepgFrame`), and `log` omits the `metaData` argument. The model builds the intended `LogEntry` in both, with no metadata for `log`.

## Findings

| source | as written | input that shows it | evidently intended | confidence | as-written member | corrected member |
|---|---|---|---|---|---|---|
| Invisible_Travel/BLEBase.swift:236-240 | a successful connection leaves the 10-second watchdog armed | once sightings are delivered (discovery is not wired, see "## Left out"): connect a listed device, succeed, wait 10 s: the watchdog sets it back to disconnected and cancels the connection | the watchdog is cancelled when the connection succeeds | not executed | BleRegistry.WatchdogDropsConnectionAsWritten | BleRegistry.ConnectedSurvivesWatchdog |
| Invisible_Travel/BLEBase.swift:215-220 | arming overwrites the dictionary entry without invalidating the timer it held | once sightings are delivered (discovery is not wired, see "## Left out"): toggle a listed device to connecting, let the attempt fail (`didFailToConnect` sets it back to disconnected without touching the timers), toggle it again within 10 s: two watchdogs are live, and the older one times out the new attempt early | the replaced timer is invalidated first, as `immediateConnect` does at Invisible_Travel/BLECore.swift:92 | not executed | BleRegistry.RetryStacksWatchdogsAsWritten | Timers.ArmKeepsSingleLive |
| Invisible_Travel/Managers/WSManager.swift:57-64 | the end marker is searched for from the start of the buffer, not after the start marker | any buffer holding an FF D9 before its first FF D8, such as FF D9 FF D8 00 FF D9: no frame is ever found, whatever follows, and the buffer only grows (`processBuffer` itself is not called, see "## Left out") | the first FF D9 after the first FF D8 ends the frame | not executed | JpegFrames.EarlyEndMarkerStallsAsWritten | JpegFrames.FindFrameRangeFindsFirstImage |
| Invisible_Travel/Managers/WSManager.swift:57-64 | an FF D9 right after the first FF D8 is taken for the end marker and then rejected, with no further search | any buffer whose first FF D8 is directly followed by FF D9, such as FF D8 FF D9 00 FF D9: no frame is ever found, whatever follows, and the buffer only grows (`processBuffer` itself is not called, see "## Left out") | an FF D9 that does not begin after the FF D8 ends is skipped, and the image is cut | not executed | JpegFrames.StartThenEndStallsAsWritten | JpegFrames.ExtractConcatenatedFrames |

=== FILE: ble_core.dfy ===
/**
 * The pure parts of the BLE extensions: the audio-device name filter, the gate
 * in front of the device list, and the status label of a connection state.
 * The extension methods that change the manager (`immediateConnect`,
 * `forceDisconnect`, `enhancedProcessDiscoveredPeripheral`) are members of
 * `BleRegistry.BluetoothManager`.
 */
module BleCore {
  import opened Wrappers
  import opened Text
  import opened BleDevice

  /**
   * `DeviceFilterEngine.applyNameFilter`: the pattern `(?i)audio|headset`
   * matches when the name contains "audio" or "headset" in any letter case.
   */
  function ApplyNameFilter(name: string): (r: bool)
    ensures r <==> exists i :: OccursAt(LowerStr(name), "audio", i) || OccursAt(LowerStr(name), "headset", i)
  {
    assert LowerStr("audio") == "audio";
    assert LowerStr("headset") == "headset";
    ContainsIgnoringCase(name, "audio") || ContainsIgnoringCase(name, "headset")
  }

  /** The filter looks at letters without their case. */
  lemma NameFilterIgnoresCase(name: string)
    ensures ApplyNameFilter(LowerStr(name)) == ApplyNameFilter(name)
  {
    LowerStrIdempotent(name);
  }

  /** The weakest signal, in dBm, a discovered device may have. */
  const MinRssi := -100

  /**
   * The guard of `enhancedProcessDiscoveredPeripheral`: a peripheral goes on
   * to the device list only if it has a name, the name passes the filter and
   * the signal is at least -100 dBm.
   */
  function ForwardsDiscovery(name: Option<string>, rssi: int): (r: bool)
    ensures r <==> name.Some? && ApplyNameFilter(name.value) && rssi >= MinRssi
  {
    match name
    case None => false
    case Some(n) => ApplyNameFilter(n) && rssi >= MinRssi
  }

  /** `DeviceStatusViewBuilder.build`: the label and colour shown for a state. */
  function StatusDisplay(state: ConnectionState): (string, Color)
  {
    match state
    case Connected => ("已連接 Connected", Green)
    case Connecting => ("搜尋中 Searching", Orange)
    case Disconnected => ("未連接 Disconnected", Gray)
  }

  /**
   * Every state gets a label: connected is green, connecting orange and
   * disconnected gray, and no two states share a label.
   */
  lemma StatusDisplayDistinct(a: ConnectionState, b: ConnectionState)
    ensures StatusDisplay(a).1 == (if a == Connected then Green else if a == Connecting then Orange else Gray)
    ensures StatusDisplay(a).0 == StatusDisplay(b).0 <==> a == b
  {
  }
}

=== FILE: ble_device.dfy ===
/**
 * The BLE device record (`BluetoothDevice`) and its connection states, with
 * the signal-strength icon the device list shows next to each entry.
 */
module BleDevice {
  import opened Wrappers
  import opened Timers

  /** Seconds on the wall clock; `Date()` becomes a `now` parameter. */
  type Time = int

  datatype ConnectionState = Disconnected | Connecting | Connected

  datatype Color = Gray | Orange | Green

  /** What the radio tells about an advertising peripheral: its identifier and its name, if any. */
  datatype Peripheral = Peripheral(id: DeviceId, name: Option<string>)

  /**
   * One entry of the device list. `hasPeripheral` says whether the weak
   * reference to the CoreBluetooth peripheral is still set.
   */
  datatype Device = Device(
    id: DeviceId,
    name: string,
    rssi: int,
    state: ConnectionState,
    lastConnectionAttempt: Option<Time>,
    hasPeripheral: bool)

  /** The name given to a peripheral that does not advertise one. */
  const UnknownDeviceName := "Unknown Device"

  /**
   * `BluetoothDevice(peripheral:rssi:)`: a new entry starts disconnected,
   * with no connection attempt, named after the peripheral or "Unknown Device".
   */
  function NewDevice(p: Peripheral, rssi: int): (d: Device)
    ensures d.id == p.id && d.rssi == rssi && d.hasPeripheral
    ensures d.state == Disconnected && d.lastConnectionAttempt == None
    ensures d.name == (if p.name.Some? then p.name.value else UnknownDeviceName)
  {
    Device(p.id, match p.name case Some(n) => n case None => UnknownDeviceName, rssi, Disconnected, None, true)
  }

  /** `SignalStrengthIcon.signalLevel`: the icon and colour for a signal strength in dBm. */
  function SignalLevel(rssi: int): (string, Color)
  {
    if rssi < -80 then ("wifi.slash", Gray)
    else if rssi <= -60 then ("wifi.exclamationmark", Orange)
    else ("wifi", Green)
  }

  /** The number of bars the icon stands for: 0, 1 or 2. */
  function Bars(level: (string, Color)): nat
  {
    if level.0 == "wifi.slash" then 0 else if level.0 == "wifi.exclamationmark" then 1 else 2
  }

  /**
   * The icon never shows a weaker level for a stronger signal, and its three
   * bands are below -80, -80 to -60, and above -60 dBm.
   */
  lemma SignalLevelMonotone(a: int, b: int)
    requires a <= b
    ensures Bars(SignalLevel(a)) <= Bars(SignalLevel(b))
    ensures Bars(SignalLevel(a)) == 0 <==> a < -80
    ensures Bars(SignalLevel(a)) == 2 <==> a > -60
    ensures SignalLevel(a).1 == [Gray, Orange, Green][Bars(SignalLevel(a))]
  {
  }
}

=== FILE: ble_registry.dfy ===
/**
 * The BLE manager (`BluetoothManager`): the list of discovered devices, the
 * scan flag, the per-device connection watchdogs and the connection state
 * machine disconnected -> connecting -> connected -> disconnected.
 *
 * CoreBluetooth calls (scan, connect, cancel, service discovery) and the
 * permission handler's alerts are appended to the ghost log `actions`.
 * Delegate callbacks, timers and `DispatchQueue.main.async` blocks become
 * event methods that run one after the other.
 */
module BleRegistry {
  import opened Wrappers
  import opened Timers
  import opened Ordering
  import opened BleDevice
  import BleCore

  /** The device list never holds more than this many entries. */
  const MaxDevices := 10

  /** The 16-bit service UUID scanned for and discovered after connecting. */
  const AudioService := "110B"

  datatype RadioState = PoweredOn | PoweredOff | Unauthorized | Unknown | Resetting | Unsupported

  datatype Authorization = NotDetermined | Restricted | Denied | AllowedAlways

  /** Calls into CoreBluetooth and into the permission handler. */
  datatype BleAction =
    | ScanForPeripherals(service: string)
    | StopScanning
    | ArmScanTimeout
    | Connect(id: DeviceId, notifyOnDisconnection: bool)
    | CancelPeripheralConnection(id: DeviceId)
    | DiscoverServices(id: DeviceId, service: string)
    | AlertPoweredOff
    | AlertUnauthorized

  // ---------------------------------------------------------------------------
  // The device list as a value

  function RssiKey(d: Device): int { d.rssi }

  function IdOf(d: Device): DeviceId { d.id }

  /** No two entries share an identifier. */
  ghost predicate UniqueIds(devs: seq<Device>)
  {
    DistinctKeys(devs, IdOf)
  }

  ghost predicate Has(devs: seq<Device>, id: DeviceId)
  {
    exists i :: 0 <= i < |devs| && devs[i].id == id
  }

  /** `firstIndex(where: { $0.id == id })`. */
  function IndexOf(devs: seq<Device>, id: DeviceId): (r: Option<nat>)
    ensures r.Some? ==> r.value < |devs| && devs[r.value].id == id
    ensures r.Some? ==> forall j :: 0 <= j < r.value ==> devs[j].id != id
    ensures r.None? <==> !Has(devs, id)
  {
    if devs == [] then None
    else if devs[0].id == id then Some(0)
    else match IndexOf(devs[1..], id)
      case None => None
      case Some(i) => Some(i + 1)
  }

  /** The device `id` is listed and its peripheral reference is still set. */
  function ListedWithPeripheral(devs: seq<Device>, id: DeviceId): bool
  {
    match IndexOf(devs, id)
    case Some(i) => devs[i].hasPeripheral
    case None => false
  }

  /** The entry with identifier `id` rewritten by `f`; nothing happens to an unknown id. */
  function UpdateEntry(devs: seq<Device>, id: DeviceId, f: Device -> Device): (r: seq<Device>)
    ensures |r| == |devs|
    ensures forall j :: 0 <= j < |devs| && devs[j].id != id ==> r[j] == devs[j]
    ensures !Has(devs, id) ==> r == devs
    ensures UniqueIds(devs) ==> forall j :: 0 <= j < |devs| && devs[j].id == id ==> r[j] == f(devs[j])
  {
    match IndexOf(devs, id)
    case None => devs
    case Some(i) => devs[i := f(devs[i])]
  }

  /**
   * `addNewDevice`: append; if that makes more than ten entries, sort by
   * signal strength, strongest first, and drop the last entry.
   */
  function AppendCapped(devs: seq<Device>, d: Device): seq<Device>
  {
    var s := devs + [d];
    if |s| > MaxDevices then SortDesc(s, RssiKey)[..|s| - 1] else s
  }

  /**
   * `processDiscoveredPeripheral`: a reading below -100 dBm is ignored; a
   * known device gets its signal strength refreshed; an unknown one is added.
   */
  function Discover(devs: seq<Device>, p: Peripheral, rssi: int): seq<Device>
  {
    if rssi < BleCore.MinRssi then devs
    else match IndexOf(devs, p.id)
      case Some(i) => devs[i := devs[i].(rssi := rssi)]
      case None => AppendCapped(devs, NewDevice(p, rssi))
  }

  /** `updateDeviceState`: the attempt time is set exactly when the new state is connecting. */
  function SetState(devs: seq<Device>, id: DeviceId, st: ConnectionState, now: Time): seq<Device>
  {
    UpdateEntry(devs, id, (d: Device) => d.(state := st, lastConnectionAttempt := if st == Connecting then Some(now) else None))
  }

  /** The writes of `beginConnectionProcess` and `immediateConnect`: connecting, stamped now. */
  function MarkConnecting(devs: seq<Device>, id: DeviceId, now: Time): seq<Device>
  {
    UpdateEntry(devs, id, (d: Device) => d.(state := Connecting, lastConnectionAttempt := Some(now)))
  }

  /** The write of `handleConnectionTimeout` and `forceDisconnect`: only the state changes. */
  function MarkDisconnected(devs: seq<Device>, id: DeviceId): seq<Device>
  {
    UpdateEntry(devs, id, (d: Device) => d.(state := Disconnected))
  }

  /**
   * A connection timer `tok` fires (`handleConnectionTimeout`): a timer that
   * was invalidated does nothing; otherwise its device, if still listed, is
   * set to disconnected and its dictionary entry removed.
   */
  function Timeout(devs: seq<Device>, t: TimerTable, tok: TimerToken): (r: (seq<Device>, TimerTable))
    requires WellFormed(t)
    ensures WellFormed(r.1)
  {
    if tok !in t.live then (devs, t)
    else
      var id := t.live[tok];
      var fired := Fire(t, tok);
      if IndexOf(devs, id).Some? then (MarkDisconnected(devs, id), DropEntry(fired, id)) else (devs, fired)
  }

  /**
   * The success callback as the source writes it: the listed entry becomes
   * connected with no attempt time, every other entry is kept, and the timer
   * table is not touched, so the watchdog stays armed.
   */
  function ConnectedAsWritten(devs: seq<Device>, t: TimerTable, id: DeviceId, now: Time): (r: (seq<Device>, TimerTable))
    ensures r.1 == t && |r.0| == |devs|
    ensures forall j :: 0 <= j < |devs| && devs[j].id != id ==> r.0[j] == devs[j]
    ensures UniqueIds(devs) ==> forall j :: 0 <= j < |devs| && devs[j].id == id ==>
      r.0[j] == devs[j].(state := Connected, lastConnectionAttempt := None)
  {
    (SetState(devs, id, Connected, now), t)
  }

  /**
   * The success callback as intended: the same write to the device list, and
   * the watchdog cancelled, so no timer is live for the device afterwards.
   */
  function ConnectedAndDisarmed(devs: seq<Device>, t: TimerTable, id: DeviceId, now: Time): (r: (seq<Device>, TimerTable))
    requires WellFormed(t)
    ensures r.0 == ConnectedAsWritten(devs, t, id, now).0
    ensures WellFormed(r.1) && id !in r.1.byKey
    ensures Tidy(t) ==> Tidy(r.1) && LiveFor(r.1, id) == {}
  {
    (SetState(devs, id, Connected, now), Cancel(t, id))
  }

  // ---------------------------------------------------------------------------
  // Properties of the device list

  /**
   * A reading below -100 dBm leaves the list as it is; any other reading
   * leaves the device listed, unless the list was full and the device's
   * signal was too weak to keep it.
   */
  lemma DiscoverRejectsWeakSignal(devs: seq<Device>, p: Peripheral, rssi: int)
    ensures rssi < -100 ==> Discover(devs, p, rssi) == devs
    ensures rssi >= -100 && |devs| < MaxDevices ==> Has(Discover(devs, p, rssi), p.id)
  {
    if rssi >= -100 && |devs| < MaxDevices {
      var r := Discover(devs, p, rssi);
      match IndexOf(devs, p.id)
      case Some(i) =>
        assert r[i].id == p.id;
      case None =>
        assert r == devs + [NewDevice(p, rssi)];
        assert r[|devs|].id == p.id;
    }
  }

  /**
   * Seeing a listed device again changes only that entry's signal strength:
   * same length, same name and state, every other entry untouched.
   */
  lemma DiscoverRefreshesOnlyRssi(devs: seq<Device>, p: Peripheral, rssi: int, i: nat)
    requires UniqueIds(devs)
    requires i < |devs| && devs[i].id == p.id && rssi >= -100
    ensures |Discover(devs, p, rssi)| == |devs|
    ensures Discover(devs, p, rssi)[i] == devs[i].(rssi := rssi)
    ensures forall j :: 0 <= j < |devs| && j != i ==> Discover(devs, p, rssi)[j] == devs[j]
  {
    assert IndexOf(devs, p.id) == Some(i);
  }

  /**
   * Adding a device keeps at most ten entries. Below the cap it is simply
   * appended. At the cap exactly one entry goes: the list is sorted by signal
   * strength, strongest first, and the removed entry has the weakest signal of
   * all eleven candidates.
   */
  lemma AppendCappedKeepsTen(devs: seq<Device>, d: Device)
    requires |devs| <= MaxDevices
    ensures |AppendCapped(devs, d)| <= MaxDevices
    ensures |devs| < MaxDevices ==> AppendCapped(devs, d) == devs + [d]
    ensures |devs| == MaxDevices ==>
      var r := AppendCapped(devs, d);
      |r| == MaxDevices && SortedDesc(r, RssiKey) &&
      exists gone :: multiset(devs + [d]) == multiset(r) + multiset{gone} &&
        forall k :: 0 <= k <= |devs| ==> (devs + [d])[k].rssi >= gone.rssi
  {
    var s := devs + [d];
    if |s| > MaxDevices {
      var sorted := SortDesc(s, RssiKey);
      DropWeakest(s, sorted, RssiKey);
      var gone := sorted[|s| - 1];
      assert multiset(s) == multiset(AppendCapped(devs, d)) + multiset{gone};
      assert forall k :: 0 <= k <= |devs| ==> s[k].rssi >= gone.rssi;
    }
  }

  /** Adding a device whose identifier is not listed keeps identifiers unique, with or without a drop. */
  lemma AppendCappedKeepsIdsUnique(devs: seq<Device>, d: Device)
    requires UniqueIds(devs) && !Has(devs, d.id)
    ensures UniqueIds(AppendCapped(devs, d))
  {
    var s := devs + [d];
    assert UniqueIds(s);
    if |s| > MaxDevices {
      var sorted := SortDesc(s, RssiKey);
      assert sorted == sorted[..|s| - 1] + [sorted[|s| - 1]];
      DistinctKeysOfSubMultiset(s, sorted[..|s| - 1], IdOf);
    }
  }

  /** Discovery keeps the list within ten entries and its identifiers unique. */
  lemma DiscoverKeepsListValid(devs: seq<Device>, p: Peripheral, rssi: int)
    requires UniqueIds(devs) && |devs| <= MaxDevices
    ensures UniqueIds(Discover(devs, p, rssi)) && |Discover(devs, p, rssi)| <= MaxDevices
  {
    if rssi >= BleCore.MinRssi && IndexOf(devs, p.id).None? {
      AppendCappedKeepsTen(devs, NewDevice(p, rssi));
      AppendCappedKeepsIdsUnique(devs, NewDevice(p, rssi));
    }
  }

  /**
   * `updateDeviceState` does nothing for an unknown device; for a known one
   * it sets the state and keeps an attempt time, the current one, exactly when
   * connecting.
   */
  lemma SetStateStampsOnlyConnecting(devs: seq<Device>, id: DeviceId, st: ConnectionState, now: Time)
    requires UniqueIds(devs)
    ensures !Has(devs, id) ==> SetState(devs, id, st, now) == devs
    ensures forall j :: 0 <= j < |devs| && devs[j].id == id ==>
      SetState(devs, id, st, now)[j].state == st &&
      (SetState(devs, id, st, now)[j].lastConnectionAttempt.Some? <==> st == Connecting) &&
      (st == Connecting ==> SetState(devs, id, st, now)[j].lastConnectionAttempt == Some(now)) &&
      SetState(devs, id, st, now)[j].name == devs[j].name &&
      SetState(devs, id, st, now)[j].rssi == devs[j].rssi
  {
  }

  /** A timeout that fires for a listed device leaves it disconnected and its dictionary entry gone. */
  lemma TimeoutDisconnects(devs: seq<Device>, t: TimerTable, tok: TimerToken)
    requires WellFormed(t) && UniqueIds(devs)
    requires tok in t.live && Has(devs, t.live[tok])
    ensures var (d2, t2) := Timeout(devs, t, tok);
      t.live[tok] !in t2.byKey && t2.live == t.live - {tok} && |d2| == |devs| &&
      forall j :: 0 <= j < |devs| ==>
        d2[j] == (if devs[j].id == t.live[tok] then devs[j].(state := Disconnected) else devs[j])
  {
  }

  /** A timeout for a device that is no longer listed changes no device. */
  lemma TimeoutForUnlistedDevice(devs: seq<Device>, t: TimerTable, tok: TimerToken)
    requires WellFormed(t)
    requires tok in t.live && !Has(devs, t.live[tok])
    ensures Timeout(devs, t, tok).0 == devs
    ensures Timeout(devs, t, tok).1.byKey == t.byKey
  {
  }

  /** A timeout keeps the timer table tidy: the timer that fires is the one recorded. */
  lemma TimeoutKeepsTidy(devs: seq<Device>, t: TimerTable, tok: TimerToken)
    requires WellFormed(t) && Tidy(t)
    ensures WellFormed(Timeout(devs, t, tok).1) && Tidy(Timeout(devs, t, tok).1)
  {
    if tok in t.live {
      var id := t.live[tok];
      var fired := Fire(t, tok);
      assert forall k :: k in fired.live ==> fired.live[k] != id;
    }
  }

  /**
   * As the source writes the success callback, a connection that succeeds is
   * torn down by its own watchdog: the device is connected, the timer armed
   * when connecting is still live, and when it fires the device goes back to
   * disconnected (and the connection is cancelled).
   */
  lemma WatchdogDropsConnectionAsWritten(p: Peripheral, rssi: int, now: Time, later: Time)
    ensures
      var devs := MarkConnecting([NewDevice(p, rssi)], p.id, now);
      var t := ArmAsWritten(Empty(), p.id);
      var (d2, t2) := ConnectedAsWritten(devs, t, p.id, later);
      var tok := t.byKey[p.id];
      d2[0].state == Connected && tok in t2.live &&
      Timeout(d2, t2, tok).0[0].state == Disconnected
  {
    var devs := MarkConnecting([NewDevice(p, rssi)], p.id, now);
    assert IndexOf(devs, p.id) == Some(0);
    var (d2, t2) := ConnectedAsWritten(devs, ArmAsWritten(Empty(), p.id), p.id, later);
    assert IndexOf(d2, p.id) == Some(0);
    assert Has(d2, p.id);
  }

  /**
   * As the source writes `startConnectionTimer`, a retry after a failed
   * attempt stacks watchdogs: the device connects, fails, and is toggled to
   * connecting again. The first watchdog was never invalidated; it is still
   * live beside the new one, and when it fires it sets the retried device
   * back to disconnected.
   */
  lemma RetryStacksWatchdogsAsWritten(p: Peripheral, rssi: int, t0: Time, t1: Time, t2: Time)
    ensures
      var t := ArmAsWritten(Empty(), p.id);
      var failed := SetState(MarkConnecting([NewDevice(p, rssi)], p.id, t0), p.id, Disconnected, t1);
      var retry := MarkConnecting(failed, p.id, t2);
      var t' := ArmAsWritten(t, p.id);
      var first := t.byKey[p.id];
      failed[0].state == Disconnected && retry[0].state == Connecting &&
      LiveFor(t', p.id) == {first, t'.byKey[p.id]} && first != t'.byKey[p.id] &&
      Timeout(retry, t', first).0[0].state == Disconnected
  {
    var t := ArmAsWritten(Empty(), p.id);
    var devs := MarkConnecting([NewDevice(p, rssi)], p.id, t0);
    assert IndexOf(devs, p.id) == Some(0);
    var failed := SetState(devs, p.id, Disconnected, t1);
    assert IndexOf(failed, p.id) == Some(0);
    var retry := MarkConnecting(failed, p.id, t2);
    assert IndexOf(retry, p.id) == Some(0);
    ArmAsWrittenAddsLive(Empty(), p.id);
    ArmAsWrittenAddsLive(t, p.id);
    assert LiveFor(Empty(), p.id) == {};
  }

  /**
   * With the watchdog cancelled on success, no timer that fires afterwards
   * can touch the connected device: it stays connected.
   */
  lemma ConnectedSurvivesWatchdog(devs: seq<Device>, t: TimerTable, id: DeviceId, now: Time, tok: TimerToken, j: nat)
    requires WellFormed(t) && Tidy(t) && UniqueIds(devs)
    requires j < |devs| && devs[j].id == id
    ensures var (d2, t2) := ConnectedAndDisarmed(devs, t, id, now);
      d2[j].state == Connected && Timeout(d2, t2, tok).0[j].state == Connected
  {
    var (d2, t2) := ConnectedAndDisarmed(devs, t, id, now);
    assert LiveFor(t2, id) == {};
    if tok in t2.live {
      assert t2.live[tok] != id;
    }
  }

  // ---------------------------------------------------------------------------
  // The manager

  class BluetoothManager {
    var discoveredDevices: seq<Device>
    var isScanning: bool
    var authorizationStatus: Authorization
    /** The central manager's radio state, as last reported. */
    var radioState: RadioState
    var connectionTimeoutTimers: map<DeviceId, TimerToken>
    /** Timers scheduled and not invalidated, with the device each was armed for. */
    var liveTimers: map<TimerToken, DeviceId>
    var nextTimer: TimerToken
    /** Whether a `permissionHandler` is set. */
    var hasPermissionHandler: bool
    ghost var actions: seq<BleAction>

    function TimerState(): TimerTable
      reads this
    {
      TimerTable(connectionTimeoutTimers, liveTimers, nextTimer)
    }

    ghost predicate Valid()
      reads this
    {
      UniqueIds(discoveredDevices) && |discoveredDevices| <= MaxDevices &&
      WellFormed(TimerState())
    }

    constructor(hasPermissionHandler: bool)
      ensures Valid()
      ensures discoveredDevices == [] && !isScanning && connectionTimeoutTimers == map[] && liveTimers == map[]
      ensures authorizationStatus == NotDetermined && radioState == Unknown
      ensures this.hasPermissionHandler == hasPermissionHandler && actions == []
    {
      discoveredDevices := [];
      isScanning := false;
      authorizationStatus := NotDetermined;
      radioState := Unknown;
      connectionTimeoutTimers := map[];
      liveTimers := map[];
      nextTimer := 0;
      this.hasPermissionHandler := hasPermissionHandler;
      actions := [];
    }

    method SetTimers(t: TimerTable)
      modifies this
      ensures TimerState() == t
      ensures discoveredDevices == old(discoveredDevices) && isScanning == old(isScanning)
      ensures authorizationStatus == old(authorizationStatus) && radioState == old(radioState)
      ensures hasPermissionHandler == old(hasPermissionHandler) && actions == old(actions)
    {
      connectionTimeoutTimers, liveTimers, nextTimer := t.byKey, t.live, t.next;
    }

    /**
     * `startScan`: with the radio on, the list is emptied, scanning starts
     * and the 3-second scan timeout is armed; otherwise nothing changes but
     * the permission handler is told why (radio off or unauthorized).
     */
    method StartScan()
      requires Valid()
      modifies this
      ensures Valid()
      ensures radioState != PoweredOn ==>
        discoveredDevices == old(discoveredDevices) && isScanning == old(isScanning) &&
        actions == old(actions) + PreScanAlerts(radioState, hasPermissionHandler)
      ensures radioState == PoweredOn ==>
        discoveredDevices == [] && isScanning &&
        actions == old(actions) + [ScanForPeripherals(AudioService), ArmScanTimeout]
      ensures TimerState() == old(TimerState()) && radioState == old(radioState)
      ensures authorizationStatus == old(authorizationStatus) && hasPermissionHandler == old(hasPermissionHandler)
    {
      if radioState != PoweredOn {
        actions := actions + PreScanAlerts(radioState, hasPermissionHandler);
        return;
      }
      ResetScanningState();
      actions := actions + [ScanForPeripherals(AudioService), ArmScanTimeout];
    }

    /** `handlePreScanningState`: the alert for a radio that is off or unauthorized. */
    static function PreScanAlerts(radio: RadioState, handler: bool): seq<BleAction>
    {
      if !handler then []
      else if radio == PoweredOff then [AlertPoweredOff]
      else if radio == Unauthorized then [AlertUnauthorized]
      else []
    }

    /** `stopScan` (also what the scan timeout runs): discovery stops, the flag clears. */
    method StopScan()
      requires Valid()
      modifies this
      ensures Valid()
      ensures !isScanning && actions == old(actions) + [StopScanning]
      ensures discoveredDevices == old(discoveredDevices) && TimerState() == old(TimerState())
      ensures radioState == old(radioState) && authorizationStatus == old(authorizationStatus)
      ensures hasPermissionHandler == old(hasPermissionHandler)
    {
      isScanning := false;
      actions := actions + [StopScanning];
    }

    /** `resetScanningState`: the list is emptied and the scan flag set; the timers stay. */
    method ResetScanningState()
      requires Valid()
      modifies this
      ensures Valid()
      ensures discoveredDevices == [] && isScanning
      ensures TimerState() == old(TimerState()) && actions == old(actions)
      ensures radioState == old(radioState) && authorizationStatus == old(authorizationStatus)
      ensures hasPermissionHandler == old(hasPermissionHandler)
    {
      discoveredDevices := [];
      isScanning := true;
    }

    /**
     * `centralManagerDidUpdateState`: records the new radio state and
     * authorization; an unauthorized radio alerts the handler only when
     * access was denied, a radio switched off always alerts it.
     */
    method HandleBluetoothStateUpdate(radio: RadioState, auth: Authorization)
      requires Valid()
      modifies this
      ensures Valid()
      ensures radioState == radio && authorizationStatus == auth
      ensures actions == old(actions) +
        (if !hasPermissionHandler then []
         else if radio == Unauthorized && auth == Denied then [AlertUnauthorized]
         else if radio == PoweredOff then [AlertPoweredOff]
         else [])
      ensures discoveredDevices == old(discoveredDevices) && isScanning == old(isScanning)
      ensures TimerState() == old(TimerState()) && hasPermissionHandler == old(hasPermissionHandler)
    {
      radioState := radio;
      authorizationStatus := auth;
      if hasPermissionHandler {
        if radio == Unauthorized {
          if auth == Denied {
            actions := actions + [AlertUnauthorized];
          }
        } else if radio == PoweredOff {
          actions := actions + [AlertPoweredOff];
        }
      }
    }

    /** `processDiscoveredPeripheral`. */
    method ProcessDiscoveredPeripheral(p: Peripheral, rssi: int)
      requires Valid()
      modifies this
      ensures Valid()
      ensures discoveredDevices == Discover(old(discoveredDevices), p, rssi)
      ensures isScanning == old(isScanning) && TimerState() == old(TimerState()) && actions == old(actions)
      ensures radioState == old(radioState) && authorizationStatus == old(authorizationStatus)
      ensures hasPermissionHandler == old(hasPermissionHandler)
    {
      DiscoverKeepsListValid(discoveredDevices, p, rssi);
      if rssi < BleCore.MinRssi {
        return;
      }
      var index := IndexOf(discoveredDevices, p.id);
      if index.Some? {
        discoveredDevices := discoveredDevices[index.value := discoveredDevices[index.value].(rssi := rssi)];
      } else {
        AddNewDevice(p, rssi);
      }
    }

    /** `addNewDevice`: append, and on overflow keep the ten strongest. */
    method AddNewDevice(p: Peripheral, rssi: int)
      requires Valid() && !Has(discoveredDevices, p.id)
      modifies this
      ensures Valid()
      ensures discoveredDevices == AppendCapped(old(discoveredDevices), NewDevice(p, rssi))
      ensures isScanning == old(isScanning) && TimerState() == old(TimerState()) && actions == old(actions)
      ensures radioState == old(radioState) && authorizationStatus == old(authorizationStatus)
      ensures hasPermissionHandler == old(hasPermissionHandler)
    {
      AppendCappedKeepsTen(discoveredDevices, NewDevice(p, rssi));
      AppendCappedKeepsIdsUnique(discoveredDevices, NewDevice(p, rssi));
      discoveredDevices := discoveredDevices + [NewDevice(p, rssi)];
      if |discoveredDevices| > MaxDevices {
        discoveredDevices := SortDesc(discoveredDevices, RssiKey);
        discoveredDevices := discoveredDevices[..|discoveredDevices| - 1];
      }
    }

    /**
     * The device as the manager sees it: the listed entry with the caller's
     * identifier, or the caller's own copy when it is no longer listed.
     */
    function Current(device: Device): Device
      reads this
    {
      match IndexOf(discoveredDevices, device.id)
      case Some(i) => discoveredDevices[i]
      case None => device
    }

    /**
     * `toggleConnection`: a device without a peripheral is ignored; a
     * disconnected one starts connecting (connect call, state connecting,
     * attempt stamped, watchdog armed); any other has its connection
     * cancelled and its watchdog removed, its state left for the callbacks.
     */
    method ToggleConnection(device: Device, now: Time)
      requires Valid()
      modifies this
      ensures Valid()
      ensures !Current(device).hasPeripheral ==>
        discoveredDevices == old(discoveredDevices) && TimerState() == old(TimerState()) && actions == old(actions)
      ensures old(Current(device)).hasPeripheral && old(Current(device)).state == Disconnected ==>
        discoveredDevices == MarkConnecting(old(discoveredDevices), device.id, now) &&
        TimerState() == ArmAsWritten(old(TimerState()), device.id) &&
        actions == old(actions) + [Connect(device.id, false)]
      ensures old(Current(device)).hasPeripheral && old(Current(device)).state != Disconnected ==>
        discoveredDevices == old(discoveredDevices) &&
        TimerState() == Cancel(old(TimerState()), device.id) &&
        actions == old(actions) + [CancelPeripheralConnection(device.id)]
      ensures isScanning == old(isScanning) && radioState == old(radioState)
      ensures authorizationStatus == old(authorizationStatus) && hasPermissionHandler == old(hasPermissionHandler)
    {
      var current := Current(device);
      if !current.hasPeripheral {
        return;
      }
      if current.state == Disconnected {
        BeginConnectionProcess(device, now);
      } else {
        CancelConnection(device.id);
      }
    }

    /** `beginConnectionProcess`: connecting, stamped, connect call issued, watchdog armed. */
    method BeginConnectionProcess(device: Device, now: Time)
      requires Valid()
      modifies this
      ensures Valid()
      ensures discoveredDevices == MarkConnecting(old(discoveredDevices), device.id, now)
      ensures TimerState() == ArmAsWritten(old(TimerState()), device.id)
      ensures actions == old(actions) + [Connect(device.id, false)]
      ensures isScanning == old(isScanning) && radioState == old(radioState)
      ensures authorizationStatus == old(authorizationStatus) && hasPermissionHandler == old(hasPermissionHandler)
    {
      discoveredDevices := MarkConnecting(discoveredDevices, device.id, now);
      actions := actions + [Connect(device.id, false)];
      StartConnectionTimer(device.id);
    }

    /** `cancelConnection`: the connection is cancelled and the watchdog removed and invalidated. */
    method CancelConnection(id: DeviceId)
      requires Valid()
      modifies this
      ensures Valid()
      ensures TimerState() == Cancel(old(TimerState()), id)
      ensures id !in connectionTimeoutTimers
      ensures id !in old(connectionTimeoutTimers) ==> connectionTimeoutTimers == old(connectionTimeoutTimers)
      ensures actions == old(actions) + [CancelPeripheralConnection(id)]
      ensures discoveredDevices == old(discoveredDevices) && isScanning == old(isScanning)
      ensures radioState == old(radioState) && authorizationStatus == old(authorizationStatus)
      ensures hasPermissionHandler == old(hasPermissionHandler)
    {
      actions := actions + [CancelPeripheralConnection(id)];
      SetTimers(Cancel(TimerState(), id));
    }

    /**
     * `startConnectionTimer`: arms the 10-second watchdog for the device and
     * records it in the dictionary, overwriting the entry. The timer it
     * replaces is not invalidated and stays live; the device's watchdog is a
     * single one only when none was live for it before.
     */
    method StartConnectionTimer(id: DeviceId)
      requires Valid()
      modifies this
      ensures Valid()
      ensures TimerState() == ArmAsWritten(old(TimerState()), id)
      ensures id in connectionTimeoutTimers && connectionTimeoutTimers[id] in LiveFor(TimerState(), id)
      ensures LiveFor(TimerState(), id) == LiveFor(old(TimerState()), id) + {connectionTimeoutTimers[id]}
      ensures discoveredDevices == old(discoveredDevices) && isScanning == old(isScanning)
      ensures actions == old(actions) && radioState == old(radioState)
      ensures authorizationStatus == old(authorizationStatus) && hasPermissionHandler == old(hasPermissionHandler)
    {
      ArmAsWrittenAddsLive(TimerState(), id);
      SetTimers(ArmAsWritten(TimerState(), id));
    }

    /**
     * The watchdog `tok` fires (`handleConnectionTimeout`): a listed device
     * goes back to disconnected, loses its dictionary entry and has its
     * connection cancelled; a device no longer listed changes nothing.
     */
    method HandleConnectionTimeout(tok: TimerToken)
      requires Valid()
      modifies this
      ensures Valid()
      ensures (discoveredDevices, TimerState()) == Timeout(old(discoveredDevices), old(TimerState()), tok)
      ensures actions == old(actions) +
        (if tok in old(liveTimers) && ListedWithPeripheral(old(discoveredDevices), old(liveTimers)[tok])
         then [CancelPeripheralConnection(old(liveTimers)[tok])] else [])
      ensures isScanning == old(isScanning) && radioState == old(radioState)
      ensures authorizationStatus == old(authorizationStatus) && hasPermissionHandler == old(hasPermissionHandler)
    {
      if tok !in liveTimers {
        return;
      }
      var id := liveTimers[tok];
      var hasPeripheral := ListedWithPeripheral(discoveredDevices, id);
      var (devs, t) := Timeout(discoveredDevices, TimerState(), tok);
      discoveredDevices := devs;
      SetTimers(t);
      if hasPeripheral {
        actions := actions + [CancelPeripheralConnection(id)];
      }
    }

    /** `updateDeviceState`. */
    method UpdateDeviceState(id: DeviceId, st: ConnectionState, now: Time)
      requires Valid()
      modifies this
      ensures Valid()
      ensures discoveredDevices == SetState(old(discoveredDevices), id, st, now)
      ensures TimerState() == old(TimerState()) && actions == old(actions) && isScanning == old(isScanning)
      ensures radioState == old(radioState) && authorizationStatus == old(authorizationStatus)
      ensures hasPermissionHandler == old(hasPermissionHandler)
    {
      discoveredDevices := SetState(discoveredDevices, id, st, now);
    }

    /**
     * `didConnect` (`handleSuccessfulConnection`): the device is connected
     * and its audio service is looked up. The watchdog is left armed.
     */
    method HandleSuccessfulConnection(id: DeviceId, now: Time)
      requires Valid()
      modifies this
      ensures Valid()
      ensures (discoveredDevices, TimerState()) == ConnectedAsWritten(old(discoveredDevices), old(TimerState()), id, now)
      ensures liveTimers == old(liveTimers) && connectionTimeoutTimers == old(connectionTimeoutTimers)
      ensures actions == old(actions) + [DiscoverServices(id, AudioService)]
      ensures isScanning == old(isScanning) && radioState == old(radioState)
      ensures authorizationStatus == old(authorizationStatus) && hasPermissionHandler == old(hasPermissionHandler)
    {
      UpdateDeviceState(id, Connected, now);
      actions := actions + [DiscoverServices(id, AudioService)];
    }

    /** `didFailToConnect` and `didDisconnectPeripheral`: the device is disconnected. */
    method HandleConnectionLoss(id: DeviceId, now: Time)
      requires Valid()
      modifies this
      ensures Valid()
      ensures discoveredDevices == SetState(old(discoveredDevices), id, Disconnected, now)
      ensures TimerState() == old(TimerState()) && actions == old(actions) && isScanning == old(isScanning)
      ensures radioState == old(radioState) && authorizationStatus == old(authorizationStatus)
      ensures hasPermissionHandler == old(hasPermissionHandler)
    {
      UpdateDeviceState(id, Disconnected, now);
    }

    /**
     * `enhancedProcessDiscoveredPeripheral`: only a named peripheral whose
     * name passes the audio filter and whose signal is at least -100 dBm
     * reaches `processDiscoveredPeripheral`.
     */
    method EnhancedProcessDiscoveredPeripheral(p: Peripheral, rssi: int)
      requires Valid()
      modifies this
      ensures Valid()
      ensures discoveredDevices ==
        if BleCore.ForwardsDiscovery(p.name, rssi) then Discover(old(discoveredDevices), p, rssi)
        else old(discoveredDevices)
      ensures p.name.None? ==> discoveredDevices == old(discoveredDevices)
      ensures isScanning == old(isScanning) && TimerState() == old(TimerState()) && actions == old(actions)
      ensures radioState == old(radioState) && authorizationStatus == old(authorizationStatus)
      ensures hasPermissionHandler == old(hasPermissionHandler)
    {
      if p.name.None? {
        return;
      }
      if BleCore.ForwardsDiscovery(p.name, rssi) {
        ProcessDiscoveredPeripheral(p, rssi);
      }
    }

    /**
     * `immediateConnect`: a device without a peripheral is ignored; otherwise
     * the old watchdog is invalidated, the device is connecting and stamped,
     * a connect call that asks to be told of disconnection is issued, and a
     * new watchdog is armed.
     */
    method ImmediateConnect(device: Device, now: Time)
      requires Valid()
      modifies this
      ensures Valid()
      ensures !Current(device).hasPeripheral ==>
        discoveredDevices == old(discoveredDevices) && TimerState() == old(TimerState()) && actions == old(actions)
      ensures old(Current(device)).hasPeripheral ==>
        discoveredDevices == MarkConnecting(old(discoveredDevices), device.id, now) &&
        TimerState() == Arm(old(TimerState()), device.id) &&
        (Tidy(old(TimerState())) ==> LiveFor(TimerState(), device.id) == {connectionTimeoutTimers[device.id]}) &&
        actions == old(actions) + [Connect(device.id, true)]
      ensures isScanning == old(isScanning) && radioState == old(radioState)
      ensures authorizationStatus == old(authorizationStatus) && hasPermissionHandler == old(hasPermissionHandler)
    {
      if !Current(device).hasPeripheral {
        return;
      }
      SetTimers(Invalidate(TimerState(), device.id));
      discoveredDevices := MarkConnecting(discoveredDevices, device.id, now);
      actions := actions + [Connect(device.id, true)];
      assert Valid();
      StartConnectionTimer(device.id);
    }

    /**
     * `forceDisconnect`: a device without a peripheral is ignored; otherwise
     * its watchdog is invalidated (the dictionary entry stays), the
     * connection is cancelled and the listed entry becomes disconnected,
     * every other entry unchanged.
     */
    method ForceDisconnect(device: Device)
      requires Valid()
      modifies this
      ensures Valid()
      ensures !Current(device).hasPeripheral ==>
        discoveredDevices == old(discoveredDevices) && TimerState() == old(TimerState()) && actions == old(actions)
      ensures old(Current(device)).hasPeripheral ==>
        discoveredDevices == MarkDisconnected(old(discoveredDevices), device.id) &&
        TimerState() == Invalidate(old(TimerState()), device.id) &&
        connectionTimeoutTimers == old(connectionTimeoutTimers) &&
        (Tidy(old(TimerState())) ==> LiveFor(TimerState(), device.id) == {}) &&
        actions == old(actions) + [CancelPeripheralConnection(device.id)]
      ensures |discoveredDevices| == |old(discoveredDevices)|
      ensures forall j :: 0 <= j < |old(discoveredDevices)| && old(discoveredDevices)[j].id != device.id ==>
        discoveredDevices[j] == old(discoveredDevices)[j]
      ensures isScanning == old(isScanning) && radioState == old(radioState)
      ensures authorizationStatus == old(authorizationStatus) && hasPermissionHandler == old(hasPermissionHandler)
    {
      if !Current(device).hasPeripheral {
        return;
      }
      SetTimers(Invalidate(TimerState(), device.id));
      actions := actions + [CancelPeripheralConnection(device.id)];
      discoveredDevices := MarkDisconnected(discoveredDevices, device.id);
    }
  }
}

=== FILE: jpeg_frames.dfy ===
/**
 * Cutting JPEG images out of a byte stream. An image runs from a start-of-image
 * marker FF D8 to an end-of-image marker FF D9 (ITU-T T.81, Annex B); the
 * WebSocket client collects binary data in `jpegBuffer`, looks for a marker
 * pair (`findFrameRange`) and removes each image it finds (`processBuffer`).
 */
module JpegFrames {
  import opened Wrappers
  import opened Messages

  /** Second byte of the start-of-image marker FF D8. */
  const SOI: bv8 := 0xD8
  /** Second byte of the end-of-image marker FF D9. */
  const EOI: bv8 := 0xD9

  /** The two-byte marker FF `second` starts at index `i` of `b`. */
  predicate MarkerAt(b: Bytes, second: bv8, i: int)
  {
    0 <= i && i + 1 < |b| && b[i] == 0xFF && b[i + 1] == second
  }

  /** `i` is where the marker FF `second` first occurs in `b`. */
  ghost predicate IsFirst(b: Bytes, second: bv8, i: int)
  {
    MarkerAt(b, second, i) && forall j :: 0 <= j < i ==> !MarkerAt(b, second, j)
  }

  lemma IsFirstUnique(b: Bytes, second: bv8, i: int, j: int)
    requires IsFirst(b, second, i) && IsFirst(b, second, j)
    ensures i == j
  {
  }

  /** `Data.range(of:)` from index `from` on: the first occurrence of the marker. */
  function FirstMarkerFrom(b: Bytes, second: bv8, from: nat): (r: Option<nat>)
    ensures r.Some? ==> from <= r.value && MarkerAt(b, second, r.value)
    ensures r.Some? ==> forall j :: from <= j < r.value ==> !MarkerAt(b, second, j)
    ensures r.None? ==> forall j :: from <= j ==> !MarkerAt(b, second, j)
    decreases |b| - from
  {
    if from + 1 >= |b| then None
    else if MarkerAt(b, second, from) then Some(from)
    else FirstMarkerFrom(b, second, from + 1)
  }

  /**
   * `findFrameRange` as the source writes it: the first FF D8 and the first
   * FF D9 of the whole buffer, accepted only when that FF D9 begins strictly
   * after the end of that FF D8. The result is the half-open range from the
   * FF D8 to just past the FF D9.
   */
  function FindFrameRangeAsWritten(b: Bytes): (r: Option<(nat, nat)>)
    ensures r.Some? <==> exists h, f :: IsFirst(b, SOI, h) && IsFirst(b, EOI, f) && f > h + 2
    ensures r.Some? ==> IsFirst(b, SOI, r.value.0) && IsFirst(b, EOI, r.value.1 - 2)
    ensures r.Some? ==> r.value.0 + 5 <= r.value.1 <= |b|
  {
    match (FirstMarkerFrom(b, SOI, 0), FirstMarkerFrom(b, EOI, 0))
    case (Some(h), Some(f)) =>
      assert IsFirst(b, SOI, h) && IsFirst(b, EOI, f);
      if f > h + 2 then Some((h, f + 2))
      else
        assert forall h', f' :: IsFirst(b, SOI, h') && IsFirst(b, EOI, f') ==> h' == h && f' == f;
        None
    case (Some(h), None) =>
      assert forall h', f :: IsFirst(b, SOI, h') && IsFirst(b, EOI, f) ==> false;
      None
    case (None, _) => None
  }

  /**
   * `findFrameRange` as intended: the first FF D8, and the first FF D9 that
   * begins strictly after it ends. An FF D9 that comes before the first FF D8
   * (the tail of an image whose start was never received) is skipped.
   */
  function FindFrameRange(b: Bytes): (r: Option<(nat, nat)>)
    ensures r.Some? ==> r.value.0 + 5 <= r.value.1 <= |b|
  {
    match FirstMarkerFrom(b, SOI, 0)
    case None => None
    case Some(h) =>
      match FirstMarkerFrom(b, EOI, h + 3)
      case None => None
      case Some(f) => Some((h, f + 2))
  }

  /**
   * The range found starts at the first FF D8 and ends just past the first
   * FF D9 that begins after that FF D8 ends; no range is found exactly when
   * no FF D9 follows the first FF D8 that way.
   */
  lemma FindFrameRangeFindsFirstImage(b: Bytes)
    ensures var r := FindFrameRange(b);
      (r.Some? ==> IsFirst(b, SOI, r.value.0) && MarkerAt(b, EOI, r.value.1 - 2)) &&
      (r.Some? ==> forall j :: r.value.0 + 3 <= j < r.value.1 - 2 ==> !MarkerAt(b, EOI, j)) &&
      (r.None? <==> forall h, f :: IsFirst(b, SOI, h) && h + 3 <= f ==> !MarkerAt(b, EOI, f))
  {
    match FirstMarkerFrom(b, SOI, 0)
    case None =>
    case Some(h) =>
      assert IsFirst(b, SOI, h);
      match FirstMarkerFrom(b, EOI, h + 3)
      case None =>
        forall h', f | IsFirst(b, SOI, h') && h' + 3 <= f ensures !MarkerAt(b, EOI, f) {
          IsFirstUnique(b, SOI, h', h);
        }
      case Some(f) =>
        assert MarkerAt(b, EOI, f);
  }

  /**
   * Whenever the source's search finds an image, the intended search finds
   * the same one: the two differ only on buffers the source gets stuck on.
   */
  lemma FindFrameRangeExtendsAsWritten(b: Bytes)
    requires FindFrameRangeAsWritten(b).Some?
    ensures FindFrameRange(b) == FindFrameRangeAsWritten(b)
  {
    var (lo, hi) := FindFrameRangeAsWritten(b).value;
    assert IsFirst(b, SOI, lo) && IsFirst(b, EOI, hi - 2);
    assert FirstMarkerFrom(b, SOI, 0) == Some(lo);
    assert FirstMarkerFrom(b, EOI, lo + 3) == Some(hi - 2);
  }

  /**
   * The source's search is stuck for good once the buffer holds an FF D9
   * that no FF D8 precedes by more than the two bytes of that FF D8: the
   * first FF D9 of the buffer then never begins after the first FF D8 ends,
   * whatever bytes arrive afterwards, so `processBuffer` emits nothing.
   */
  lemma StallsAsWritten(b: Bytes, f: nat, x: Bytes)
    requires MarkerAt(b, EOI, f)
    requires forall h :: 0 <= h < f - 2 ==> !MarkerAt(b, SOI, h)
    ensures FindFrameRangeAsWritten(b + x) == None
    ensures ExtractFrames(AsWritten, b + x) == (b + x, [])
  {
    var c := b + x;
    assert MarkerAt(c, EOI, f);
    forall h, f' | IsFirst(c, SOI, h) && IsFirst(c, EOI, f') ensures f' <= h + 2 {
      if h < f' - 2 {
        assert MarkerAt(b, SOI, h);
      }
    }
  }

  /**
   * A stray FF D9 before the first FF D8 (a client that joins a stream in the
   * middle of an image) stalls the source's search for good, whatever bytes
   * arrive afterwards; the intended search skips it and finds the image
   * that follows.
   */
  lemma EarlyEndMarkerStallsAsWritten(b: Bytes, f: nat, x: Bytes)
    requires MarkerAt(b, EOI, f)
    requires forall h :: 0 <= h < f ==> !MarkerAt(b, SOI, h)
    ensures FindFrameRangeAsWritten(b + x) == None
    ensures ExtractFrames(AsWritten, b + x) == (b + x, [])
    ensures FindFrameRange([0xFF, 0xD9, 0xFF, 0xD8, 0x00, 0xFF, 0xD9]) == Some((2, 7))
  {
    StallsAsWritten(b, f, x);
    var c: Bytes := [0xFF, 0xD9, 0xFF, 0xD8, 0x00, 0xFF, 0xD9];
    assert IsFirst(c, SOI, 2) by {
      assert !MarkerAt(c, SOI, 0) && !MarkerAt(c, SOI, 1);
    }
    assert FirstMarkerFrom(c, SOI, 0) == Some(2);
    assert MarkerAt(c, EOI, 5);
    assert FirstMarkerFrom(c, EOI, 5) == Some(5);
  }

  /**
   * The source's search is also stuck for good once the first FF D8 of the
   * buffer is directly followed by FF D9: that FF D9 does not begin after the
   * FF D8 ends, so no range is found, whatever follows. The intended search
   * skips it and finds the image.
   */
  lemma StartThenEndStallsAsWritten(b: Bytes, h: nat, x: Bytes)
    requires MarkerAt(b, SOI, h) && MarkerAt(b, EOI, h + 2)
    requires forall j :: 0 <= j < h ==> !MarkerAt(b, SOI, j)
    ensures FindFrameRangeAsWritten(b + x) == None
    ensures ExtractFrames(AsWritten, b + x) == (b + x, [])
    ensures FindFrameRange([0xFF, 0xD8, 0xFF, 0xD9, 0x00, 0xFF, 0xD9]) == Some((0, 7))
  {
    StallsAsWritten(b, h + 2, x);
    var c: Bytes := [0xFF, 0xD8, 0xFF, 0xD9, 0x00, 0xFF, 0xD9];
    assert FirstMarkerFrom(c, SOI, 0) == Some(0);
    assert !MarkerAt(c, EOI, 3) && !MarkerAt(c, EOI, 4) && MarkerAt(c, EOI, 5);
    assert FirstMarkerFrom(c, EOI, 3) == Some(5);
  }

  /** Which search `processBuffer` repeats: `findFrameRange` as the source writes it, or as intended. */
  datatype Search = AsWritten | Corrected

  function Find(s: Search, b: Bytes): (r: Option<(nat, nat)>)
    ensures r.Some? ==> r.value.0 + 5 <= r.value.1 <= |b|
  {
    match s
    case AsWritten => FindFrameRangeAsWritten(b)
    case Corrected => FindFrameRange(b)
  }

  /** The bytes of all frames, one after the other. */
  function Flatten(frames: seq<Bytes>): Bytes
  {
    if frames == [] then [] else frames[0] + Flatten(frames[1..])
  }

  /**
   * The whole of `processBuffer`: cut out the range the search finds, close
   * the gap and repeat. Gives what stays in the buffer and the images in the
   * order they were cut; the search finds nothing in what stays.
   */
  function ExtractFrames(s: Search, b: Bytes): (r: (Bytes, seq<Bytes>))
    ensures Find(s, r.0).None?
    ensures |r.0| <= |b|
    decreases |b|
  {
    match Find(s, b)
    case None => (b, [])
    case Some((lo, hi)) =>
      var (rest, frames) := ExtractFrames(s, b[..lo] + b[hi..]);
      (rest, [b[lo..hi]] + frames)
  }

  /** Where each frame was cut, in the buffer as it was just before that cut. */
  function CutPoints(s: Search, b: Bytes): (r: seq<nat>)
    ensures |r| == |ExtractFrames(s, b).1|
    decreases |b|
  {
    match Find(s, b)
    case None => []
    case Some((lo, hi)) => [lo] + CutPoints(s, b[..lo] + b[hi..])
  }

  /**
   * Undoes a run of cuts: the last frame goes back in first, each frame
   * `frames[i]` at position `at[i]` of what the later ones rebuilt.
   */
  function Restore(rest: Bytes, frames: seq<Bytes>, at: seq<nat>): Bytes
    requires |at| == |frames|
    decreases |frames|
  {
    if frames == [] then rest
    else
      var inner := Restore(rest, frames[1..], at[1..]);
      var k := if at[0] <= |inner| then at[0] else |inner|;
      inner[..k] + frames[0] + inner[k..]
  }

  /** Where the search finds nothing, `processBuffer` emits nothing and keeps the buffer. */
  lemma ExtractFramesDone(s: Search, b: Bytes)
    requires Find(s, b).None?
    ensures ExtractFrames(s, b) == (b, [])
  {
  }

  /**
   * One pass of `processBuffer`'s loop: the frames emitted so far followed by
   * what the buffer still gives stay what the original buffer gives, once
   * the frame found is emitted and cut out.
   */
  lemma ExtractFramesStep(s: Search, start: Bytes, b: Bytes, emitted: seq<Bytes>, lo: nat, hi: nat)
    requires Find(s, b) == Some((lo, hi))
    requires ExtractFrames(s, start) == (ExtractFrames(s, b).0, emitted + ExtractFrames(s, b).1)
    ensures ExtractFrames(s, start) ==
      (ExtractFrames(s, b[..lo] + b[hi..]).0, (emitted + [b[lo..hi]]) + ExtractFrames(s, b[..lo] + b[hi..]).1)
  {
    var c := b[..lo] + b[hi..];
    assert ExtractFrames(s, b) == (ExtractFrames(s, c).0, [b[lo..hi]] + ExtractFrames(s, c).1);
    assert emitted + ([b[lo..hi]] + ExtractFrames(s, c).1) == (emitted + [b[lo..hi]]) + ExtractFrames(s, c).1;
  }

  /** A complete image: FF D8, at least one byte, FF D9, and no FF D9 in between that the search could take for its end. */
  ghost predicate IsFrame(f: Bytes)
  {
    |f| >= 5 && MarkerAt(f, SOI, 0) && MarkerAt(f, EOI, |f| - 2) &&
    forall j :: 3 <= j < |f| - 2 ==> !MarkerAt(f, EOI, j)
  }

  /**
   * A complete image the search `s` can cut whole. The source's search takes
   * the first FF D9 of the buffer, so for it an image must not hold FF D9
   * anywhere before its end marker, not even right after the FF D8.
   */
  ghost predicate IsFrameFor(s: Search, f: Bytes)
  {
    IsFrame(f) && (s == AsWritten ==> forall j :: 0 <= j < |f| - 2 ==> !MarkerAt(f, EOI, j))
  }

  /**
   * Every emitted frame is a complete image the search can cut (FF D8, at
   * least one byte, FF D9, no earlier FF D9 after the start marker, and for
   * the source's search none before the start marker either).
   */
  lemma {:induction false} ExtractedFramesAreImages(s: Search, b: Bytes)
    ensures forall i :: 0 <= i < |ExtractFrames(s, b).1| ==> IsFrameFor(s, ExtractFrames(s, b).1[i])
    decreases |b|
  {
    match Find(s, b)
    case None =>
    case Some((lo, hi)) =>
      var c := b[..lo] + b[hi..];
      ExtractedFramesAreImages(s, c);
      var f := b[lo..hi];
      assert forall j :: 0 <= j < |f| - 1 ==> MarkerAt(f, EOI, j) == MarkerAt(b, EOI, lo + j);
      if s == Corrected {
        FindFrameRangeFindsFirstImage(b);
      } else {
        assert IsFirst(b, SOI, lo) && IsFirst(b, EOI, hi - 2);
      }
      assert IsFrameFor(s, f);
      var (rest, frames) := ExtractFrames(s, c);
      assert ExtractFrames(s, b) == (rest, [f] + frames);
  }

  lemma FlattenCons(f: Bytes, fs: seq<Bytes>)
    ensures Flatten([f] + fs) == f + Flatten(fs)
  {
    assert ([f] + fs)[1..] == fs;
  }

  /** Restoring one more cut puts that frame back into what the later ones rebuilt. */
  lemma RestoreCons(rest: Bytes, f: Bytes, frames: seq<Bytes>, lo: nat, at: seq<nat>)
    requires |at| == |frames| && lo <= |Restore(rest, frames, at)|
    ensures var inner := Restore(rest, frames, at);
      Restore(rest, [f] + frames, [lo] + at) == inner[..lo] + f + inner[lo..]
  {
    assert ([f] + frames)[1..] == frames && ([lo] + at)[1..] == at;
  }

  /** Cutting `b[lo..hi]` out and putting it back at `lo` gives `b`. */
  lemma CutAndPaste(b: Bytes, lo: nat, hi: nat)
    requires lo <= hi <= |b|
    ensures var c := b[..lo] + b[hi..]; lo <= |c| && c[..lo] + b[lo..hi] + c[lo..] == b
  {
    var c := b[..lo] + b[hi..];
    assert c[..lo] == b[..lo] && c[lo..] == b[hi..];
  }

  /**
   * Extraction loses, invents and reorders no byte: putting each frame back
   * where it was cut out rebuilds the original buffer, and the frames and
   * the rest together are as long as the buffer.
   */
  lemma {:induction false} ExtractFramesSplitsBuffer(s: Search, b: Bytes)
    ensures Restore(ExtractFrames(s, b).0, ExtractFrames(s, b).1, CutPoints(s, b)) == b
    ensures |b| == |Flatten(ExtractFrames(s, b).1)| + |ExtractFrames(s, b).0|
    decreases |b|
  {
    match Find(s, b)
    case None =>
    case Some((lo, hi)) =>
      var c := b[..lo] + b[hi..];
      ExtractFramesSplitsBuffer(s, c);
      var (rest, frames) := ExtractFrames(s, c);
      assert ExtractFrames(s, b) == (rest, [b[lo..hi]] + frames);
      assert CutPoints(s, b) == [lo] + CutPoints(s, c);
      FlattenCons(b[lo..hi], frames);
      CutAndPaste(b, lo, hi);
      RestoreCons(rest, b[lo..hi], frames, lo, CutPoints(s, c));
  }

  /** A buffer that starts with an image the search can cut gives that image's range first. */
  lemma FindLeadingFrame(s: Search, f: Bytes, tail: Bytes)
    requires IsFrameFor(s, f)
    ensures Find(s, f + tail) == Some((0, |f|))
  {
    var b := f + tail;
    assert IsFirst(b, SOI, 0);
    assert FirstMarkerFrom(b, SOI, 0) == Some(0);
    assert forall j :: 0 <= j < |f| - 1 ==> MarkerAt(b, EOI, j) == MarkerAt(f, EOI, j);
    assert MarkerAt(b, EOI, |f| - 2);
    if s == Corrected {
      assert FirstMarkerFrom(b, EOI, 3) == Some(|f| - 2);
    } else {
      assert FirstMarkerFrom(b, EOI, 0) == Some(|f| - 2);
    }
  }

  /** A buffer that starts with an image the search can cut gives that image first, then what the rest gives. */
  lemma ExtractLeadingFrame(s: Search, f: Bytes, tail: Bytes)
    requires IsFrameFor(s, f)
    ensures ExtractFrames(s, f + tail) == (ExtractFrames(s, tail).0, [f] + ExtractFrames(s, tail).1)
  {
    var b := f + tail;
    FindLeadingFrame(s, f, tail);
    assert b[..0] + b[|f|..] == tail;
    assert b[0..|f|] == f;
  }

  /**
   * A stream made of complete images the search can cut, one after the
   * other, comes apart into exactly those images, in order, and leaves
   * nothing behind.
   */
  lemma {:induction false} ExtractConcatenatedFrames(s: Search, frames: seq<Bytes>)
    requires forall i :: 0 <= i < |frames| ==> IsFrameFor(s, frames[i])
    ensures ExtractFrames(s, Flatten(frames)) == ([], frames)
    decreases |frames|
  {
    if frames != [] {
      var f, tail := frames[0], Flatten(frames[1..]);
      assert Flatten(frames) == f + tail;
      ExtractLeadingFrame(s, f, tail);
      ExtractConcatenatedFrames(s, frames[1..]);
      assert [f] + frames[1..] == frames;
    }
  }
}

=== FILE: log_manager.dfy ===
/**
 * The message log (`LogManager`): entries newest first, never more than 500.
 * `UUID()` and `Date()` become parameters of the logging methods.
 */
module Logging {
  import opened Wrappers
  import opened Text
  import opened Messages

  /** The most entries the log keeps. */
  const MaxEntries := 500

  datatype Direction = Sent | Received

  datatype LogEntry = LogEntry(
    id: nat,
    timestamp: int,
    kind: WSDataType,
    direction: Direction,
    metaData: Option<map<string, string>>)

  /** `applyRetentionPolicy` on a list of entries: beyond 500, only the first 500 stay. */
  function Retain(entries: seq<LogEntry>): seq<LogEntry>
  {
    if |entries| > MaxEntries then entries[..MaxEntries] else entries
  }

  /**
   * Retention keeps at most 500 entries; it keeps the newest ones, in order,
   * dropping only from the old end; and a log of 500 or fewer is left alone.
   */
  lemma RetainKeepsNewest(entries: seq<LogEntry>)
    ensures |Retain(entries)| <= MaxEntries
    ensures Retain(entries) == entries[..|Retain(entries)|]
    ensures |entries| <= MaxEntries ==> Retain(entries) == entries
    ensures |entries| > MaxEntries ==> |Retain(entries)| == MaxEntries
  {
  }

  /**
   * Trimming after every insertion loses nothing that trimming once at the
   * end would keep: the log always holds the 500 newest entries ever added.
   */
  lemma RetainAbsorbs(e: LogEntry, entries: seq<LogEntry>)
    ensures Retain([e] + Retain(entries)) == Retain([e] + entries)
  {
    if |entries| > MaxEntries {
      assert ([e] + entries[..MaxEntries])[..MaxEntries] == [e] + entries[..MaxEntries - 1];
      assert ([e] + entries)[..MaxEntries] == [e] + entries[..MaxEntries - 1];
    }
  }

  /** The metadata of a video frame entry: its size as "<byte count> bytes". */
  function FrameMetaData(frame: Bytes): map<string, string>
  {
    map["size" := NatToString(|frame|) + " bytes"]
  }

  /** The recorded size reads back as the frame's byte count. */
  lemma {:induction false} FrameMetaDataNamesSize(frame: Bytes)
    ensures "size" in FrameMetaData(frame)
    ensures var v := FrameMetaData(frame)["size"];
      |v| > 6 && v[|v| - 6..] == " bytes" &&
      (forall k :: 0 <= k < |v| - 6 ==> IsDigit(v[k])) &&
      ParseDigits(v[..|v| - 6]) == |frame|
  {
    var digits := NatToString(|frame|);
    var v := digits + " bytes";
    assert v[..|v| - 6] == digits;
    assert v[|v| - 6..] == " bytes";
    ParseNatToString(|frame|);
  }

  class LogManager {
    var entries: seq<LogEntry>
    /** Every entry ever added, newest first. */
    ghost var history: seq<LogEntry>

    /** The log shows the newest 500 of all entries ever added. */
    ghost predicate Valid()
      reads this
    {
      entries == Retain(history)
    }

    constructor()
      ensures Valid() && entries == [] && history == []
    {
      entries := [];
      history := [];
    }

    /** `addEntry`: the entry goes in front, then the log is trimmed. */
    method AddEntry(e: LogEntry)
      requires Valid()
      modifies this
      ensures Valid()
      ensures history == [e] + old(history)
      ensures entries == Retain([e] + old(entries))
      ensures entries[0] == e && |entries| <= MaxEntries
    {
      RetainAbsorbs(e, history);
      entries := [e] + entries;
      history := [e] + history;
      ApplyRetentionPolicy();
      RetainKeepsNewest(history);
    }

    /** `applyRetentionPolicy`. */
    method ApplyRetentionPolicy()
      modifies this`entries
      ensures entries == Retain(old(entries))
    {
      if |entries| > MaxEntries {
        entries := entries[..MaxEntries];
      }
    }

    /** `log(_:direction:)`: an entry of the given kind, received unless said otherwise, without metadata. */
    method Log(dataType: WSDataType, id: nat, now: int, direction: Direction := Received)
      requires Valid()
      modifies this
      ensures Valid()
      ensures history == [LogEntry(id, now, dataType, direction, None)] + old(history)
      ensures entries == Retain([LogEntry(id, now, dataType, direction, None)] + old(entries))
    {
      AddEntry(LogEntry(id, now, dataType, direction, None));
    }

    /** `logVideoFrame`: a received frame entry whose metadata gives its size. */
    method LogVideoFrame(frame: Bytes, id: nat, now: int)
      requires Valid()
      modifies this
      ensures Valid()
      ensures history == [LogEntry(id, now, JepgFrame(frame), Received, Some(FrameMetaData(frame)))] + old(history)
      ensures entries == Retain([LogEntry(id, now, JepgFrame(frame), Received, Some(FrameMetaData(frame)))] + old(entries))
    {
      AddEntry(LogEntry(id, now, JepgFrame(frame), Received, Some(FrameMetaData(frame))));
    }
  }
}

=== FILE: messages.dfy ===
/**
 * The message kinds the WebSocket client hands to its delegate and the log
 * (`WSDataType`), and the device status record it decodes from JSON text.
 */
module Messages {

  /** Swift's `Data`: a sequence of bytes. */
  type Bytes = seq<bv8>

  datatype NetworkInfo = NetworkInfo(signalDBM: int, channel: int)

  /** The decoded status record; `uptime` is a `TimeInterval` (a Double), kept as a real. */
  datatype StatusMessage = StatusMessage(
    batteryLevel: int,
    isCharging: bool,
    network: NetworkInfo,
    uptime: real,
    firmwareVersion: string)

  /** The four kinds of message; `JepgFrame` keeps the source's spelling. */
  datatype WSDataType =
    | Status(status: StatusMessage)
    | PlainText(text: string)
    | JepgFrame(frame: Bytes)
    | RawData(data: Bytes)

  /** The display label of a message kind (the source's `descrtiption`). */
  function Description(m: WSDataType): string
  {
    match m
    case Status(_) => "Status"
    case PlainText(_) => "Text"
    case JepgFrame(_) => "VideoFrame"
    case RawData(_) => "Binary"
  }

  /** Two messages are of the same kind. */
  predicate SameKind(a: WSDataType, b: WSDataType)
  {
    (a.Status? && b.Status?) || (a.PlainText? && b.PlainText?) ||
    (a.JepgFrame? && b.JepgFrame?) || (a.RawData? && b.RawData?)
  }

  /**
   * The label depends on the kind alone and tells the four kinds apart:
   * "Status", "Text", "VideoFrame" and "Binary", one per kind.
   */
  lemma DescriptionNamesKind(a: WSDataType, b: WSDataType)
    ensures Description(a) in {"Status", "Text", "VideoFrame", "Binary"}
    ensures a.Status? <==> Description(a) == "Status"
    ensures a.PlainText? <==> Description(a) == "Text"
    ensures a.JepgFrame? <==> Description(a) == "VideoFrame"
    ensures a.RawData? <==> Description(a) == "Binary"
    ensures Description(a) == Description(b) <==> SameKind(a, b)
  {
  }
}

=== FILE: ordering.dfy ===
/**
 * Keys of sequence elements: sorting by an integer key, strongest first, and
 * sequences whose elements carry distinct identifiers. Sorting is the model
 * of Swift's `sort { $0.rssi > $1.rssi }` and
 * `sorted { $0.value.rssi > $1.value.rssi }`. Swift does not promise which of
 * two equal keys comes first; this insertion sort keeps them in their
 * original order, which is one of the orders Swift may produce.
 */
module Ordering {

  /** Keys never increase from left to right. */
  ghost predicate SortedDesc<T>(s: seq<T>, key: T -> int)
  {
    forall i, j :: 0 <= i < j < |s| ==> key(s[i]) >= key(s[j])
  }

  /** No element of `s` has a key above `k`. */
  ghost predicate AllAtMost<T>(s: seq<T>, key: T -> int, k: int)
  {
    forall i :: 0 <= i < |s| ==> key(s[i]) <= k
  }

  /** Puts `x` in front of the first element whose key is below its own. */
  function InsertDesc<T>(x: T, s: seq<T>, key: T -> int): (r: seq<T>)
    ensures multiset(r) == multiset(s) + multiset{x}
    ensures |r| == |s| + 1
  {
    if s == [] then [x]
    else if key(x) >= key(s[0]) then [x] + s
    else
      assert s == [s[0]] + s[1..];
      [s[0]] + InsertDesc(x, s[1..], key)
  }

  /** A bound on every key survives an insertion of an element within it. */
  lemma {:induction false} InsertDescAtMost<T>(x: T, s: seq<T>, key: T -> int, k: int)
    requires AllAtMost(s, key, k) && key(x) <= k
    ensures AllAtMost(InsertDesc(x, s, key), key, k)
  {
    if s != [] && key(x) < key(s[0]) {
      InsertDescAtMost(x, s[1..], key, k);
    }
  }

  /** A descending sequence stays descending under a head with the largest key. */
  lemma ConsSortedDesc<T>(h: T, t: seq<T>, key: T -> int)
    requires SortedDesc(t, key) && AllAtMost(t, key, key(h))
    ensures SortedDesc([h] + t, key)
  {
  }

  /** Inserting into a descending sequence keeps it descending. */
  lemma {:induction false} InsertDescSorted<T>(x: T, s: seq<T>, key: T -> int)
    requires SortedDesc(s, key)
    ensures SortedDesc(InsertDesc(x, s, key), key)
  {
    if s == [] {
    } else if key(x) >= key(s[0]) {
      ConsSortedDesc(x, s, key);
    } else {
      InsertDescSorted(x, s[1..], key);
      InsertDescAtMost(x, s[1..], key, key(s[0]));
      ConsSortedDesc(s[0], InsertDesc(x, s[1..], key), key);
    }
  }

  /** A permutation of `s` whose keys never increase. */
  function SortDesc<T>(s: seq<T>, key: T -> int): (r: seq<T>)
    ensures multiset(r) == multiset(s)
    ensures |r| == |s|
    ensures SortedDesc(r, key)
  {
    if s == [] then []
    else
      assert s == [s[0]] + s[1..];
      var sorted := SortDesc(s[1..], key);
      InsertDescSorted(s[0], sorted, key);
      InsertDesc(s[0], sorted, key)
  }

  /**
   * Dropping the last element of a descending permutation of `s` removes
   * exactly one element, one whose key is the smallest in `s`, and leaves
   * the rest descending.
   */
  lemma DropWeakest<T>(s: seq<T>, sorted: seq<T>, key: T -> int)
    requires |sorted| > 0 && SortedDesc(sorted, key) && multiset(sorted) == multiset(s)
    ensures multiset(s) == multiset(sorted[..|sorted| - 1]) + multiset{sorted[|sorted| - 1]}
    ensures SortedDesc(sorted[..|sorted| - 1], key)
    ensures forall i :: 0 <= i < |s| ==> key(s[i]) >= key(sorted[|sorted| - 1])
  {
    var gone := sorted[|sorted| - 1];
    assert sorted == sorted[..|sorted| - 1] + [gone];
    forall i | 0 <= i < |s| ensures key(s[i]) >= key(gone) {
      assert s[i] in multiset(sorted);
      var j :| 0 <= j < |sorted| && sorted[j] == s[i];
    }
  }

  /** No two elements share an identifier. */
  ghost predicate DistinctKeys<T, K>(s: seq<T>, id: T -> K)
  {
    forall i, j :: 0 <= i < j < |s| ==> id(s[i]) != id(s[j])
  }

  lemma CountAtMostOne<T, K>(s: seq<T>, id: T -> K, x: T)
    requires DistinctKeys(s, id)
    ensures multiset(s)[x] <= 1
  {
    if s != [] {
      assert s == [s[0]] + s[1..];
      CountAtMostOne(s[1..], id, x);
      if s[0] == x {
        assert forall k :: 0 <= k < |s[1..]| ==> id(s[1..][k]) != id(x);
        assert x !in s[1..];
      }
    }
  }

  /** Taking elements out of a sequence, in any order, keeps identifiers distinct. */
  lemma DistinctKeysOfSubMultiset<T, K>(s: seq<T>, r: seq<T>, id: T -> K)
    requires DistinctKeys(s, id)
    requires multiset(r) <= multiset(s)
    ensures DistinctKeys(r, id)
  {
    forall i, j | 0 <= i < j < |r| ensures id(r[i]) != id(r[j]) {
      assert r[i] in multiset(s) && r[j] in multiset(s);
      var a :| 0 <= a < |s| && s[a] == r[i];
      var b :| 0 <= b < |s| && s[b] == r[j];
      if r[i] == r[j] {
        assert r == r[..i] + [r[i]] + r[i + 1..j] + [r[j]] + r[j + 1..];
        assert multiset(r)[r[i]] >= 2;
        CountAtMostOne(s, id, r[i]);
      }
    }
  }
}

=== FILE: stream_session.dfy ===
/**
 * The WebSocket client of the glasses (`WSManager` in Managers/WSManager.swift):
 * the socket and delegate it holds, the connection flag and last error, the
 * bounded reconnection counter, the dispatch of incoming messages, the JPEG
 * reassembly buffer, and the command it sends (`DeviceInfoCommand`).
 *
 * Starscream socket calls are appended to the ghost log `transport`, and the
 * calls made on the delegate to the ghost log `calls`. The serial queue and
 * the hops to the main queue are taken to run each block at once, one event
 * after the other. URL parsing, JSON encoding and decoding and `UIImage(data:)`
 * are parameters.
 */
module StreamSession {
  import opened Wrappers
  import opened Text
  import opened Messages
  import opened JpegFrames

  type SocketId = nat
  type DelegateId = nat
  type UInt16 = x: int | 0 <= x < 0x1_0000

  /** What Starscream reports to its delegate. */
  datatype WebSocketEvent =
    | Connected(headers: map<string, string>)
    | Disconnected(reason: string, code: UInt16)
    | TextFrame(text: string)
    | BinaryFrame(data: Bytes)
    | Error(description: Option<string>)
      /** ping, pong, viability changes, reconnect suggestions, cancellation, peer closed */
    | OtherEvent

  /** Calls made on a Starscream socket. */
  datatype TransportAction =
    | Open(socket: SocketId, url: string, timeoutSeconds: nat)
    | Close(socket: SocketId)
    | Write(socket: SocketId, data: Bytes)
    | Reopen(socket: SocketId)
    | ReconnectAfter(seconds: nat)

  /** Calls made on the delegate. */
  datatype DelegateMessage = Received(kind: WSDataType) | Frame(frame: Bytes) | VideoFrame(image: Bytes)
  datatype DelegateCall = DelegateCall(to: DelegateId, message: DelegateMessage)

  /** A call on an optional delegate (`delegate?.…`): nothing when none is set. */
  function Notify(d: Option<DelegateId>, m: DelegateMessage): seq<DelegateCall>
  {
    if d.Some? then [DelegateCall(d.value, m)] else []
  }

  /** The calls of `didReceiveFrame` for each of `frames`, in order. */
  function FrameCalls(d: Option<DelegateId>, frames: seq<Bytes>): seq<DelegateCall>
  {
    if frames == [] then [] else FrameCalls(d, frames[..|frames| - 1]) + Notify(d, Frame(frames[|frames| - 1]))
  }

  /** Notifying one more frame extends a log that already holds the earlier frames' calls. */
  lemma FrameCallsSnoc(log: seq<DelegateCall>, d: Option<DelegateId>, frames: seq<Bytes>, f: Bytes)
    ensures log + FrameCalls(d, frames + [f]) == (log + FrameCalls(d, frames)) + Notify(d, Frame(f))
  {
    assert (frames + [f])[..|frames|] == frames;
  }

  // ---------------------------------------------------------------------------
  // Error messages

  const NotConnectedError := "Cant send command: Not connected"
  const InvalidImageError := "Invalid image data received"

  function InvalidUrlError(url: string): string { "Invalid URL: " + url }

  function EncodeFailedError(description: string): string { "Encode failed: " + description }

  function SocketError(description: Option<string>): string
  {
    "WebSocket error: " + match description case Some(s) => s case None => "Unknown"
  }

  /** The message of a disconnection; the parenthesis is left open as in the source. */
  function DisconnectMessage(code: UInt16, reason: string): string
  {
    "Disconnected (" + NatToString(code) + ": " + reason
  }

  /**
   * The close code can be read back from the disconnection message: the
   * digits between the prefix and the first colon are its decimal form.
   */
  lemma {:induction false} DisconnectMessageNamesCode(code: UInt16, reason: string)
    ensures var m := DisconnectMessage(code, reason);
      var n := |NatToString(code)|;
      |m| == 16 + n + |reason| && m[..14] == "Disconnected (" &&
      m[14 + n..16 + n] == ": " && m[16 + n..] == reason &&
      (forall k :: 14 <= k < 14 + n ==> IsDigit(m[k])) &&
      ParseDigits(m[14..14 + n]) == code
  {
    var digits := NatToString(code);
    var m := DisconnectMessage(code, reason);
    assert m == "Disconnected (" + digits + ": " + reason;
    assert m[14..14 + |digits|] == digits;
    ParseNatToString(code);
  }

  // ---------------------------------------------------------------------------
  // Incoming text

  /**
   * `handleTextMessage`: text that decodes as a status record is a status
   * message; any other text is plain text carrying the original string.
   */
  function Classify(text: string, decode: string -> Option<StatusMessage>): (r: WSDataType)
    ensures r.Status? || r.PlainText?
    ensures r.Status? <==> decode(text).Some?
    ensures r.Status? ==> r.status == decode(text).value
    ensures r.PlainText? ==> r.text == text
  {
    match decode(text)
    case Some(s) => Status(s)
    case None => PlainText(text)
  }

  // ---------------------------------------------------------------------------
  // Reconnection

  function Pow2(n: nat): (r: nat)
    ensures r >= 1
  {
    if n == 0 then 1 else 2 * Pow2(n - 1)
  }

  /**
   * One `scheduleReconnect`: below the maximum the counter goes up by one and
   * a reconnection is due after 2^counter seconds; at the maximum nothing
   * happens. Gives the new counter and the delay, if any.
   */
  function NextReconnect(attempts: nat, max: nat): (nat, Option<nat>)
  {
    if attempts < max then (attempts + 1, Some(Pow2(attempts + 1))) else (attempts, None)
  }

  /** The counter never passes the maximum and moves by one exactly when a reconnection is scheduled. */
  lemma NextReconnectBounded(attempts: nat, max: nat)
    requires attempts <= max
    ensures var (n, delay) := NextReconnect(attempts, max);
      n <= max && (n == attempts + 1 <==> attempts < max) && (n == attempts <==> attempts == max) &&
      (delay.Some? <==> attempts < max) && (delay.Some? ==> delay.value == Pow2(n))
  {
  }

  /** The delays scheduled by `k` disconnections in a row, starting from counter `attempts`. */
  function ReconnectDelays(attempts: nat, max: nat, k: nat): seq<nat>
    decreases k
  {
    if k == 0 then []
    else
      var (n, delay) := NextReconnect(attempts, max);
      (match delay case Some(s) => [s] case None => []) + ReconnectDelays(n, max, k - 1)
  }

  function Min(a: nat, b: nat): nat { if a <= b then a else b }

  /**
   * Disconnections in a row schedule doubling delays 2^(a+1), 2^(a+2), …,
   * one per remaining attempt, and nothing once the maximum is reached.
   */
  lemma {:induction false} ReconnectDelaysDouble(attempts: nat, max: nat, k: nat)
    requires attempts <= max
    ensures ReconnectDelays(attempts, max, k) == seq(Min(k, max - attempts), i requires 0 <= i => Pow2(attempts + i + 1))
    decreases k
  {
    if k > 0 {
      var (n, delay) := NextReconnect(attempts, max);
      ReconnectDelaysDouble(n, max, k - 1);
      if attempts < max {
        var tail := seq(Min(k - 1, max - n), i requires 0 <= i => Pow2(n + i + 1));
        assert ReconnectDelays(attempts, max, k) == [Pow2(attempts + 1)] + tail;
      }
    }
  }

  /** With the maximum of three, a run of disconnections is retried after 2, 4 and 8 seconds, then no more. */
  lemma ThreeRetries()
    ensures ReconnectDelays(0, 3, 5) == [2, 4, 8]
  {
    ReconnectDelaysDouble(0, 3, 5);
  }

  // ---------------------------------------------------------------------------
  // The command

  datatype ActionType = RequestStatus | SetResolution | Reboot

  /** The raw value each action is encoded as. */
  function RawValue(a: ActionType): string
  {
    match a
    case RequestStatus => "req_status"
    case SetResolution => "set_res"
    case Reboot => "reboot"
  }

  /** `ActionType(rawValue:)`. */
  function ActionFromRaw(s: string): Option<ActionType>
  {
    if s == "req_status" then Some(RequestStatus)
    else if s == "set_res" then Some(SetResolution)
    else if s == "reboot" then Some(Reboot)
    else None
  }

  /** Raw values decode back to their action, and only the three raw values decode. */
  lemma RawValueRoundTrip(a: ActionType, s: string)
    ensures ActionFromRaw(RawValue(a)) == Some(a)
    ensures ActionFromRaw(s).Some? ==> RawValue(ActionFromRaw(s).value) == s
  {
  }

  /** A `CGSize`; its `CGFloat` components are kept as reals. */
  datatype Size = Size(width: real, height: real)

  datatype DeviceInfoCommand = DeviceInfoCommand(action: ActionType, width: Option<int>, height: Option<int>)

  /** `Int(x)` for a `CGFloat`: the fraction is dropped, rounding toward zero. */
  function TruncateToInt(x: real): (r: int)
    ensures x >= 0.0 ==> r as real <= x < r as real + 1.0
    ensures x < 0.0 ==> r as real - 1.0 < x <= r as real
  {
    if x >= 0.0 then x.Floor else -((-x).Floor)
  }

  /** `DeviceInfoCommand.init(action:resolution:)`. */
  function MakeDeviceInfoCommand(action: ActionType, resolution: Option<Size>): DeviceInfoCommand
  {
    match resolution
    case Some(size) => DeviceInfoCommand(action, Some(TruncateToInt(size.width)), Some(TruncateToInt(size.height)))
    case None => DeviceInfoCommand(action, None, None)
  }

  /**
   * The command carries a width and a height exactly when a resolution is
   * given, each the whole part of that dimension, rounded toward zero.
   */
  lemma DeviceInfoCommandSize(action: ActionType, resolution: Option<Size>)
    ensures var c := MakeDeviceInfoCommand(action, resolution);
      c.action == action &&
      (c.width.Some? <==> resolution.Some?) && (c.height.Some? <==> resolution.Some?) &&
      (resolution.Some? && resolution.value.width >= 0.0 ==>
         c.width.value as real <= resolution.value.width < c.width.value as real + 1.0) &&
      (resolution.Some? && resolution.value.height >= 0.0 ==>
         c.height.value as real <= resolution.value.height < c.height.value as real + 1.0) &&
      (resolution.Some? && resolution.value.width < 0.0 ==>
         c.width.value as real - 1.0 < resolution.value.width <= c.width.value as real) &&
      (resolution.Some? && resolution.value.height < 0.0 ==>
         c.height.value as real - 1.0 < resolution.value.height <= c.height.value as real)
  {
  }

  // ---------------------------------------------------------------------------
  // The client

  class WSManager {
    var socket: Option<SocketId>
    /** The identifier the next socket created gets. */
    var nextSocket: SocketId
    var isConnected: bool
    var lastError: Option<string>
    var delegate: Option<DelegateId>
    var jpegBuffer: Bytes
    var reconnectAttempts: nat
    var maxReconnectAttempts: nat
    ghost var transport: seq<TransportAction>
    ghost var calls: seq<DelegateCall>

    ghost predicate Valid()
      reads this
    {
      reconnectAttempts <= maxReconnectAttempts &&
      (socket.Some? ==> socket.value < nextSocket)
    }

    constructor()
      ensures Valid()
      ensures socket == None && !isConnected && lastError == None && delegate == None
      ensures jpegBuffer == [] && reconnectAttempts == 0 && maxReconnectAttempts == 3
      ensures transport == [] && calls == []
    {
      socket := None;
      nextSocket := 0;
      isConnected := false;
      lastError := None;
      delegate := None;
      jpegBuffer := [];
      reconnectAttempts := 0;
      maxReconnectAttempts := 3;
      transport := [];
      calls := [];
    }

    /** The close call on the current socket, if there is one (`socket?.disconnect()`). */
    function CloseCurrent(): seq<TransportAction>
      reads this
    {
      if socket.Some? then [Close(socket.value)] else []
    }

    /**
     * `connect(to:delegate:)`: the current socket is closed first. A string
     * that is not a URL records "Invalid URL: …" and installs neither a socket
     * nor the delegate. Otherwise a fresh socket is opened with a 10-second
     * timeout and the delegate installed.
     */
    method Connect(url: string, d: DelegateId, urlParses: bool)
      requires Valid()
      modifies this
      ensures Valid()
      ensures !urlParses ==>
        lastError == Some(InvalidUrlError(url)) && socket == old(socket) && delegate == old(delegate) &&
        transport == old(transport) + old(CloseCurrent())
      ensures urlParses ==>
        socket == Some(old(nextSocket)) && delegate == Some(d) && lastError == old(lastError) &&
        transport == old(transport) + old(CloseCurrent()) + [Open(old(nextSocket), url, 10)]
      ensures isConnected == old(isConnected) && jpegBuffer == old(jpegBuffer) && calls == old(calls)
      ensures reconnectAttempts == old(reconnectAttempts) && maxReconnectAttempts == old(maxReconnectAttempts)
    {
      transport := transport + CloseCurrent();
      if !urlParses {
        lastError := Some(InvalidUrlError(url));
        return;
      }
      socket := Some(nextSocket);
      nextSocket := nextSocket + 1;
      transport := transport + [Open(socket.value, url, 10)];
      delegate := Some(d);
    }

    /** `disconnect`: closes and drops the socket, clears the flag and the delegate. */
    method Disconnect()
      requires Valid()
      modifies this
      ensures Valid()
      ensures socket == None && !isConnected && delegate == None
      ensures transport == old(transport) + old(CloseCurrent())
      ensures old(socket).None? ==> transport == old(transport)
      ensures lastError == old(lastError) && jpegBuffer == old(jpegBuffer) && calls == old(calls)
      ensures reconnectAttempts == old(reconnectAttempts) && maxReconnectAttempts == old(maxReconnectAttempts)
      ensures nextSocket == old(nextSocket)
    {
      transport := transport + CloseCurrent();
      socket := None;
      isConnected := false;
      delegate := None;
    }

    /**
     * `sendCommand`: while not connected nothing is written and the
     * not-connected error is recorded; a command that fails to encode records
     * "Encode failed: …"; otherwise the encoded bytes go to the socket, if any.
     */
    method SendCommand(command: DeviceInfoCommand, encode: DeviceInfoCommand -> Result<Bytes, string>)
      requires Valid()
      modifies this
      ensures Valid()
      ensures !old(isConnected) ==> lastError == Some(NotConnectedError) && transport == old(transport)
      ensures old(isConnected) && encode(command).Err? ==>
        lastError == Some(EncodeFailedError(encode(command).error)) && transport == old(transport)
      ensures old(isConnected) && encode(command).Ok? ==>
        lastError == old(lastError) &&
        transport == old(transport) + (if socket.Some? then [Write(socket.value, encode(command).value)] else [])
      ensures socket == old(socket) && isConnected == old(isConnected) && delegate == old(delegate)
      ensures jpegBuffer == old(jpegBuffer) && calls == old(calls) && nextSocket == old(nextSocket)
      ensures reconnectAttempts == old(reconnectAttempts) && maxReconnectAttempts == old(maxReconnectAttempts)
    {
      if !isConnected {
        lastError := Some(NotConnectedError);
        return;
      }
      match encode(command)
      case Err(e) =>
        lastError := Some(EncodeFailedError(e));
      case Ok(data) =>
        if socket.Some? {
          transport := transport + [Write(socket.value, data)];
        }
    }

    /** `handleConnected`: the flag is set and the error cleared to the empty string. */
    method HandleConnected()
      requires Valid()
      modifies this
      ensures Valid()
      ensures isConnected && lastError == Some("")
      ensures socket == old(socket) && delegate == old(delegate) && transport == old(transport)
      ensures jpegBuffer == old(jpegBuffer) && calls == old(calls) && nextSocket == old(nextSocket)
      ensures reconnectAttempts == old(reconnectAttempts) && maxReconnectAttempts == old(maxReconnectAttempts)
    {
      isConnected := true;
      lastError := Some("");
    }

    /** `scheduleReconnect`: the counter moves as `NextReconnect` says and the delay is scheduled. */
    method ScheduleReconnect()
      requires Valid()
      modifies this
      ensures Valid()
      ensures reconnectAttempts == NextReconnect(old(reconnectAttempts), maxReconnectAttempts).0
      ensures transport == old(transport) +
        match NextReconnect(old(reconnectAttempts), maxReconnectAttempts).1
        case Some(s) => [ReconnectAfter(s)]
        case None => []
      ensures socket == old(socket) && isConnected == old(isConnected) && delegate == old(delegate)
      ensures lastError == old(lastError) && jpegBuffer == old(jpegBuffer) && calls == old(calls)
      ensures nextSocket == old(nextSocket) && maxReconnectAttempts == old(maxReconnectAttempts)
    {
      if reconnectAttempts >= maxReconnectAttempts {
        return;
      }
      reconnectAttempts := reconnectAttempts + 1;
      transport := transport + [ReconnectAfter(Pow2(reconnectAttempts))];
    }

    /** The reconnection delay has passed: the current socket, if any, connects again. */
    method ReconnectTimerFired()
      requires Valid()
      modifies this
      ensures Valid()
      ensures transport == old(transport) + (if socket.Some? then [Reopen(socket.value)] else [])
      ensures socket == old(socket) && isConnected == old(isConnected) && delegate == old(delegate)
      ensures lastError == old(lastError) && jpegBuffer == old(jpegBuffer) && calls == old(calls)
      ensures nextSocket == old(nextSocket) && reconnectAttempts == old(reconnectAttempts)
      ensures maxReconnectAttempts == old(maxReconnectAttempts)
    {
      if socket.Some? {
        transport := transport + [Reopen(socket.value)];
      }
    }

    /** `handleDisconnected`: the flag clears, the code and reason are recorded, a reconnection is scheduled. */
    method HandleDisconnected(reason: string, code: UInt16)
      requires Valid()
      modifies this
      ensures Valid()
      ensures !isConnected && lastError == Some(DisconnectMessage(code, reason))
      ensures reconnectAttempts == NextReconnect(old(reconnectAttempts), maxReconnectAttempts).0
      ensures transport == old(transport) +
        match NextReconnect(old(reconnectAttempts), maxReconnectAttempts).1
        case Some(s) => [ReconnectAfter(s)]
        case None => []
      ensures socket == old(socket) && delegate == old(delegate) && jpegBuffer == old(jpegBuffer)
      ensures calls == old(calls) && nextSocket == old(nextSocket) && maxReconnectAttempts == old(maxReconnectAttempts)
    {
      isConnected := false;
      lastError := Some(DisconnectMessage(code, reason));
      ScheduleReconnect();
    }

    /** `handleTextMessage`: exactly one `didReceive` call, with the classified message. */
    method HandleTextMessage(text: string, decode: string -> Option<StatusMessage>)
      requires Valid()
      modifies this
      ensures Valid()
      ensures calls == old(calls) + Notify(delegate, Received(Classify(text, decode)))
      ensures socket == old(socket) && isConnected == old(isConnected) && delegate == old(delegate)
      ensures lastError == old(lastError) && jpegBuffer == old(jpegBuffer) && transport == old(transport)
      ensures nextSocket == old(nextSocket) && reconnectAttempts == old(reconnectAttempts)
      ensures maxReconnectAttempts == old(maxReconnectAttempts)
    {
      calls := calls + Notify(delegate, Received(Classify(text, decode)));
    }

    /**
     * `handleBinaryData`: bytes that are not an image record an error; an
     * image goes to the delegate's `didReceiveVideoFrame`.
     */
    method HandleBinaryData(data: Bytes, isImage: Bytes -> bool)
      requires Valid()
      modifies this
      ensures Valid()
      ensures !isImage(data) ==> lastError == Some(InvalidImageError) && calls == old(calls)
      ensures isImage(data) ==> lastError == old(lastError) && calls == old(calls) + Notify(delegate, VideoFrame(data))
      ensures socket == old(socket) && isConnected == old(isConnected) && delegate == old(delegate)
      ensures jpegBuffer == old(jpegBuffer) && transport == old(transport)
      ensures nextSocket == old(nextSocket) && reconnectAttempts == old(reconnectAttempts)
      ensures maxReconnectAttempts == old(maxReconnectAttempts)
    {
      if !isImage(data) {
        lastError := Some(InvalidImageError);
        return;
      }
      calls := calls + Notify(delegate, VideoFrame(data));
    }

    /**
     * `didReceive(event:client:)`: each event goes to its handler; an error
     * records "WebSocket error: …" and leaves the connection flag alone;
     * other events change nothing.
     */
    method DidReceive(event: WebSocketEvent, decode: string -> Option<StatusMessage>, isImage: Bytes -> bool)
      requires Valid()
      modifies this
      ensures Valid()
      ensures event.Connected? ==> isConnected && lastError == Some("") && transport == old(transport) && calls == old(calls)
      ensures event.Disconnected? ==>
        !isConnected && lastError == Some(DisconnectMessage(event.code, event.reason)) &&
        reconnectAttempts == NextReconnect(old(reconnectAttempts), maxReconnectAttempts).0 &&
        calls == old(calls)
      ensures event.Disconnected? ==>
        transport == old(transport) +
          match NextReconnect(old(reconnectAttempts), maxReconnectAttempts).1
          case Some(s) => [ReconnectAfter(s)]
          case None => []
      ensures event.TextFrame? ==>
        calls == old(calls) + Notify(delegate, Received(Classify(event.text, decode))) &&
        isConnected == old(isConnected) && lastError == old(lastError) && transport == old(transport)
      ensures event.BinaryFrame? ==> isConnected == old(isConnected) && transport == old(transport)
      ensures event.BinaryFrame? && !isImage(event.data) ==> lastError == Some(InvalidImageError) && calls == old(calls)
      ensures event.BinaryFrame? && isImage(event.data) ==>
        lastError == old(lastError) && calls == old(calls) + Notify(delegate, VideoFrame(event.data))
      ensures event.Error? ==>
        lastError == Some(SocketError(event.description)) && isConnected == old(isConnected) &&
        transport == old(transport) && calls == old(calls)
      ensures event.OtherEvent? ==>
        isConnected == old(isConnected) && lastError == old(lastError) && transport == old(transport) && calls == old(calls)
      ensures !event.Disconnected? ==> reconnectAttempts == old(reconnectAttempts)
      ensures socket == old(socket) && delegate == old(delegate) && jpegBuffer == old(jpegBuffer)
      ensures nextSocket == old(nextSocket) && maxReconnectAttempts == old(maxReconnectAttempts)
    {
      match event
      case Connected(_) => HandleConnected();
      case Disconnected(reason, code) => HandleDisconnected(reason, code);
      case TextFrame(text) => HandleTextMessage(text, decode);
      case BinaryFrame(data) => HandleBinaryData(data, isImage);
      case Error(description) => lastError := Some(SocketError(description));
      case OtherEvent =>
    }

    /**
     * One pass of `processBuffer`'s loop: the bytes `jpegBuffer[lo..hi]` go
     * to the delegate's `didReceiveFrame` and are removed from the buffer.
     */
    method EmitFrame(lo: nat, hi: nat) returns (frame: Bytes)
      requires lo <= hi <= |jpegBuffer|
      modifies this`jpegBuffer, this`calls
      ensures frame == old(jpegBuffer)[lo..hi]
      ensures jpegBuffer == old(jpegBuffer)[..lo] + old(jpegBuffer)[hi..]
      ensures calls == old(calls) + Notify(delegate, Frame(frame))
    {
      frame := jpegBuffer[lo..hi];
      calls := calls + Notify(delegate, Frame(frame));
      jpegBuffer := jpegBuffer[..lo] + jpegBuffer[hi..];
    }

    /**
     * `processBuffer`: while the search finds an image, hand it to the
     * delegate's `didReceiveFrame` and cut it out of the buffer. Returns the
     * images in the order they were cut; the buffer keeps what is left.
     */
    method ProcessBuffer() returns (frames: seq<Bytes>)
      requires Valid()
      modifies this
      ensures Valid()
      ensures (jpegBuffer, frames) == ExtractFrames(AsWritten, old(jpegBuffer))
      ensures calls == old(calls) + FrameCalls(delegate, frames)
      ensures socket == old(socket) && isConnected == old(isConnected) && delegate == old(delegate)
      ensures lastError == old(lastError) && transport == old(transport) && nextSocket == old(nextSocket)
      ensures reconnectAttempts == old(reconnectAttempts) && maxReconnectAttempts == old(maxReconnectAttempts)
    {
      frames := [];
      ghost var start, called := jpegBuffer, calls;
      var range := FindFrameRangeAsWritten(jpegBuffer);
      assert [] + ExtractFrames(AsWritten, start).1 == ExtractFrames(AsWritten, start).1;
      while range.Some?
        invariant range == Find(AsWritten, jpegBuffer)
        invariant ExtractFrames(AsWritten, start) == (ExtractFrames(AsWritten, jpegBuffer).0, frames + ExtractFrames(AsWritten, jpegBuffer).1)
        invariant calls == called + FrameCalls(delegate, frames)
        modifies this`jpegBuffer, this`calls
        decreases |jpegBuffer|
      {
        ExtractFramesStep(AsWritten, start, jpegBuffer, frames, range.value.0, range.value.1);
        FrameCallsSnoc(called, delegate, frames, jpegBuffer[range.value.0..range.value.1]);
        var frame := EmitFrame(range.value.0, range.value.1);
        frames := frames + [frame];
        range := FindFrameRangeAsWritten(jpegBuffer);
      }
      ExtractFramesDone(AsWritten, jpegBuffer);
      assert frames + [] == frames;
    }
  }
}

=== FILE: stream_session_early.dfy ===
/**
 * The earlier revision of the WebSocket client (WebSocketCore/WSManager.swift):
 * the same socket, delegate, connection flag and last error as `StreamSession`,
 * without the reassembly buffer and the reconnection counter. The messages,
 * events and socket calls are those of `StreamSession`.
 */
module StreamSessionEarly {
  import opened Wrappers
  import opened Messages
  import opened StreamSession

  class WSManager {
    var socket: Option<SocketId>
    /** The identifier the next socket created gets. */
    var nextSocket: SocketId
    var isConnected: bool
    var lastError: Option<string>
    var delegate: Option<DelegateId>
    ghost var transport: seq<TransportAction>

    ghost predicate Valid()
      reads this
    {
      socket.Some? ==> socket.value < nextSocket
    }

    constructor()
      ensures Valid()
      ensures socket == None && !isConnected && lastError == None && delegate == None && transport == []
    {
      socket := None;
      nextSocket := 0;
      isConnected := false;
      lastError := None;
      delegate := None;
      transport := [];
    }

    /** The close call on the current socket, if there is one. */
    function CloseCurrent(): seq<TransportAction>
      reads this
    {
      if socket.Some? then [Close(socket.value)] else []
    }

    /**
     * `connect(to:delegate:)`: the current socket is closed; a string that is
     * not a URL records "Invalid URL: …" and installs neither a new socket nor
     * the delegate; otherwise a fresh socket is opened and the delegate set.
     */
    method Connect(url: string, d: DelegateId, urlParses: bool)
      requires Valid()
      modifies this
      ensures Valid()
      ensures !urlParses ==>
        lastError == Some(InvalidUrlError(url)) && socket == old(socket) && delegate == old(delegate) &&
        transport == old(transport) + old(CloseCurrent())
      ensures urlParses ==>
        socket == Some(old(nextSocket)) && delegate == Some(d) && lastError == old(lastError) &&
        old(socket) != socket &&
        transport == old(transport) + old(CloseCurrent()) + [Open(old(nextSocket), url, 10)]
      ensures isConnected == old(isConnected)
    {
      transport := transport + CloseCurrent();
      if !urlParses {
        lastError := Some(InvalidUrlError(url));
        return;
      }
      socket := Some(nextSocket);
      nextSocket := nextSocket + 1;
      transport := transport + [Open(socket.value, url, 10)];
      delegate := Some(d);
    }

    /**
     * `disconnect`: the socket is closed and dropped, the flag cleared and the
     * delegate removed; a second call finds nothing to close.
     */
    method Disconnect()
      requires Valid()
      modifies this
      ensures Valid()
      ensures socket == None && !isConnected && delegate == None
      ensures transport == old(transport) + old(CloseCurrent())
      ensures old(socket).None? ==> transport == old(transport)
      ensures lastError == old(lastError) && nextSocket == old(nextSocket)
    {
      transport := transport + CloseCurrent();
      socket := None;
      isConnected := false;
      delegate := None;
    }

    /**
     * `sendCommand`: while not connected nothing is written and the
     * not-connected error is recorded; otherwise the encoded command is
     * written to the socket, or the encoding error recorded.
     */
    method SendCommand(command: DeviceInfoCommand, encode: DeviceInfoCommand -> Result<Bytes, string>)
      requires Valid()
      modifies this
      ensures Valid()
      ensures !old(isConnected) ==> lastError == Some(NotConnectedError) && transport == old(transport)
      ensures old(isConnected) && encode(command).Err? ==>
        lastError == Some(EncodeFailedError(encode(command).error)) && transport == old(transport)
      ensures old(isConnected) && encode(command).Ok? ==>
        lastError == old(lastError) &&
        transport == old(transport) + (if socket.Some? then [Write(socket.value, encode(command).value)] else [])
      ensures socket == old(socket) && isConnected == old(isConnected) && delegate == old(delegate)
      ensures nextSocket == old(nextSocket)
    {
      if !isConnected {
        lastError := Some(NotConnectedError);
        return;
      }
      match encode(command)
      case Err(e) =>
        lastError := Some(EncodeFailedError(e));
      case Ok(data) =>
        if socket.Some? {
          transport := transport + [Write(socket.value, data)];
        }
    }

    /** `handleConnected`: the flag is set and the error cleared to the empty string. */
    method HandleConnected()
      requires Valid()
      modifies this
      ensures Valid()
      ensures isConnected && lastError == Some("")
      ensures socket == old(socket) && delegate == old(delegate) && transport == old(transport)
      ensures nextSocket == old(nextSocket)
    {
      isConnected := true;
      lastError := Some("");
    }

    /**
     * `didReceive(event:client:)`: a connected event runs `handleConnected`;
     * an error records "WebSocket error: …" and leaves the flag alone. The
     * handlers named for disconnection, text and binary data are not defined
     * in this revision, so those events change nothing here, and neither do
     * the remaining events.
     */
    method DidReceive(event: WebSocketEvent)
      requires Valid()
      modifies this
      ensures Valid()
      ensures event.Connected? ==> isConnected && lastError == Some("")
      ensures event.Error? ==> lastError == Some(SocketError(event.description)) && isConnected == old(isConnected)
      ensures !event.Connected? && !event.Error? ==> isConnected == old(isConnected) && lastError == old(lastError)
      ensures socket == old(socket) && delegate == old(delegate) && transport == old(transport)
      ensures nextSocket == old(nextSocket)
    {
      match event
      case Connected(_) => HandleConnected();
      case Error(description) => lastError := Some(SocketError(description));
      case _ =>
    }
  }
}

=== FILE: text.dfy ===
/**
 * String helpers shared by the filters and the messages: ASCII lower-casing,
 * substring search and the decimal rendering that Swift string interpolation
 * uses for integers.
 */
module Text {

  /** Lower-cases the ASCII letters A-Z and leaves every other character alone. */
  function Lower(c: char): (r: char)
    ensures 'A' <= c <= 'Z' ==> r as int == c as int + 32
    ensures !('A' <= c <= 'Z') ==> r == c
  {
    if 'A' <= c <= 'Z' then (c as int + 32) as char else c
  }

  function LowerStr(s: string): (r: string)
    ensures |r| == |s|
    ensures forall i :: 0 <= i < |s| ==> r[i] == Lower(s[i])
  {
    seq(|s|, i requires 0 <= i < |s| => Lower(s[i]))
  }

  /** `needle` occurs in `hay` starting at index `i`. */
  ghost predicate OccursAt(hay: string, needle: string, i: int)
  {
    0 <= i && i + |needle| <= |hay| && hay[i..i + |needle|] == needle
  }

  /** Substring search from index `from` on (the search behind Swift's `contains`). */
  function ContainsFrom(hay: string, needle: string, from: nat): (r: bool)
    ensures r <==> exists i :: from <= i && OccursAt(hay, needle, i)
    decreases |hay| - from
  {
    if from + |needle| > |hay| then false
    else if hay[from..from + |needle|] == needle then
      assert OccursAt(hay, needle, from); true
    else ContainsFrom(hay, needle, from + 1)
  }

  /** `needle` is a substring of `hay`. */
  function Contains(hay: string, needle: string): (r: bool)
    ensures r <==> exists i :: OccursAt(hay, needle, i)
  {
    ContainsFrom(hay, needle, 0)
  }

  /** Case-insensitive substring test (ASCII letters only). */
  function ContainsIgnoringCase(hay: string, needle: string): (r: bool)
    ensures r <==> exists i :: OccursAt(LowerStr(hay), LowerStr(needle), i)
  {
    Contains(LowerStr(hay), LowerStr(needle))
  }

  lemma LowerStrIdempotent(s: string)
    ensures LowerStr(LowerStr(s)) == LowerStr(s)
  {
  }

  function DigitChar(d: nat): char
    requires d < 10
  {
    "0123456789"[d]
  }

  predicate IsDigit(c: char)
  {
    '0' <= c <= '9'
  }

  /** Decimal rendering of a natural number, as `"\(n)"` produces it. */
  function NatToString(n: nat): (r: string)
    ensures r != []
    ensures forall i :: 0 <= i < |r| ==> IsDigit(r[i])
    decreases n
  {
    if n < 10 then [DigitChar(n)] else NatToString(n / 10) + [DigitChar(n % 10)]
  }

  /** Reads a string of decimal digits back as a number. */
  function ParseDigits(s: string): nat
    requires forall i :: 0 <= i < |s| ==> IsDigit(s[i])
  {
    if s == [] then 0
    else ParseDigits(s[..|s| - 1]) * 10 + DigitValue(s[|s| - 1])
  }

  function DigitValue(c: char): (d: nat)
    requires IsDigit(c)
    ensures d < 10
  {
    c as int - '0' as int
  }

  /** The decimal rendering loses nothing: parsing it gives the number back. */
  lemma {:induction false} ParseNatToString(n: nat)
    ensures ParseDigits(NatToString(n)) == n
    decreases n
  {
    var s := NatToString(n);
    if n >= 10 {
      ParseNatToString(n / 10);
      assert s[..|s| - 1] == NatToString(n / 10);
    }
  }

  /** Distinct numbers are rendered as distinct strings. */
  lemma NatToStringInjective(m: nat, n: nat)
    requires NatToString(m) == NatToString(n)
    ensures m == n
  {
    ParseNatToString(m);
    ParseNatToString(n);
  }
}

=== FILE: timers.dfy ===
/**
 * The connection-timeout timers of the BLE manager as a value.
 *
 * `byKey` is the manager's `connectionTimeoutTimers` dictionary (device id to
 * timer); `live` is the run loop's view: the timers that are scheduled and not
 * invalidated, each with the device it was armed for. A timer is identified by
 * a token drawn from `next`, the stand-in for a fresh `Timer` object.
 */
module Timers {

  /** A peripheral's identifier (its UUID). */
  type DeviceId = nat

  type TimerToken = nat

  datatype TimerTable = TimerTable(byKey: map<DeviceId, TimerToken>, live: map<TimerToken, DeviceId>, next: TimerToken)

  function Empty(): TimerTable
  {
    TimerTable(map[], map[], 0)
  }

  /** Every live token was drawn before `next`, so `next` is fresh. */
  ghost predicate WellFormed(t: TimerTable)
  {
    forall tok :: tok in t.live ==> tok < t.next
  }

  /** Every live timer is the one the dictionary records for its device. */
  ghost predicate Tidy(t: TimerTable)
  {
    forall tok :: tok in t.live ==> t.live[tok] in t.byKey && t.byKey[t.live[tok]] == tok
  }

  /** The live timers armed for `id`. */
  ghost function LiveFor(t: TimerTable, id: DeviceId): set<TimerToken>
  {
    set tok | tok in t.live && t.live[tok] == id
  }

  /** A tidy table has at most one live timer per device. */
  lemma TidySingleLive(t: TimerTable, id: DeviceId, a: TimerToken, b: TimerToken)
    requires Tidy(t)
    requires a in LiveFor(t, id) && b in LiveFor(t, id)
    ensures a == b
  {
  }

  /**
   * `startConnectionTimer` as the source writes it: schedule a new timer and
   * overwrite the dictionary entry, without invalidating the timer it replaces.
   */
  function ArmAsWritten(t: TimerTable, id: DeviceId): (r: TimerTable)
    requires WellFormed(t)
    ensures WellFormed(r)
    ensures id in r.byKey && r.byKey[id] == t.next && t.next in r.live && r.live[t.next] == id
    ensures forall k :: k in t.byKey && k != id ==> k in r.byKey && r.byKey[k] == t.byKey[k]
  {
    TimerTable(t.byKey[id := t.next], t.live[t.next := id], t.next + 1)
  }

  /**
   * Arming as the source writes it adds the new timer to those live for the
   * device and stops none of them.
   */
  lemma ArmAsWrittenAddsLive(t: TimerTable, id: DeviceId)
    requires WellFormed(t)
    ensures LiveFor(ArmAsWritten(t, id), id) == LiveFor(t, id) + {t.next}
  {
    var r := ArmAsWritten(t, id);
    assert forall tok :: tok in LiveFor(t, id) ==> tok != t.next && tok in LiveFor(r, id);
  }

  /** `connectionTimeoutTimers[id]?.invalidate()`: the entry stays, its timer stops. */
  function Invalidate(t: TimerTable, id: DeviceId): (r: TimerTable)
    requires WellFormed(t)
    ensures WellFormed(r) && r.byKey == t.byKey && r.next == t.next
    ensures Tidy(t) ==> Tidy(r) && LiveFor(r, id) == {}
  {
    if id in t.byKey then TimerTable(t.byKey, t.live - {t.byKey[id]}, t.next) else t
  }

  /**
   * Arming as intended: the previous timer for `id` is invalidated before the
   * new one replaces it, so timers never stack up for one device.
   */
  function Arm(t: TimerTable, id: DeviceId): (r: TimerTable)
    requires WellFormed(t)
    ensures WellFormed(r)
    ensures id in r.byKey && r.byKey[id] == t.next && t.next in r.live && r.live[t.next] == id
    ensures forall k :: k in t.byKey && k != id ==> k in r.byKey && r.byKey[k] == t.byKey[k]
  {
    ArmAsWritten(Invalidate(t, id), id)
  }

  /** `connectionTimeoutTimers.removeValue(forKey: id)?.invalidate()`. */
  function Cancel(t: TimerTable, id: DeviceId): (r: TimerTable)
    requires WellFormed(t)
    ensures WellFormed(r) && id !in r.byKey && r.next == t.next
    ensures forall k :: k != id && k in t.byKey ==> k in r.byKey && r.byKey[k] == t.byKey[k]
    ensures id !in t.byKey ==> r == t
    ensures Tidy(t) ==> Tidy(r) && LiveFor(r, id) == {}
  {
    if id in t.byKey then TimerTable(t.byKey - {id}, t.live - {t.byKey[id]}, t.next) else t
  }

  /** `connectionTimeoutTimers.removeValue(forKey: id)` without invalidating. */
  function DropEntry(t: TimerTable, id: DeviceId): (r: TimerTable)
    ensures id !in r.byKey && r.live == t.live && r.next == t.next
    ensures forall k :: k != id && k in t.byKey ==> k in r.byKey && r.byKey[k] == t.byKey[k]
  {
    TimerTable(t.byKey - {id}, t.live, t.next)
  }

  /** A non-repeating timer that fires is no longer live. */
  function Fire(t: TimerTable, tok: TimerToken): (r: TimerTable)
    requires WellFormed(t)
    ensures WellFormed(r) && tok !in r.live && r.byKey == t.byKey
    ensures Tidy(t) ==> Tidy(r)
  {
    TimerTable(t.byKey, t.live - {tok}, t.next)
  }

  /**
   * Arming as intended keeps the table tidy, and afterwards exactly one timer
   * is live for the device: the one just recorded.
   */
  lemma ArmKeepsSingleLive(t: TimerTable, id: DeviceId)
    requires WellFormed(t) && Tidy(t)
    ensures Tidy(Arm(t, id))
    ensures LiveFor(Arm(t, id), id) == {t.next}
  {
    var u := Invalidate(t, id);
    var r := Arm(t, id);
    assert LiveFor(u, id) == {};
    forall tok | tok in r.live
      ensures r.live[tok] in r.byKey && r.byKey[r.live[tok]] == tok
    {
      if tok != t.next {
        assert tok in u.live;
      }
    }
    assert forall tok :: tok in r.live && tok != t.next ==> tok in u.live && r.live[tok] == u.live[tok];
  }

  /**
   * Arming as the source writes it, while the device already has a live timer,
   * leaves two live timers for that device: the old one is no longer in the
   * dictionary and nothing can cancel it any more.
   */
  lemma ArmAsWrittenStacksTimers(t: TimerTable, id: DeviceId)
    requires WellFormed(t)
    requires id in t.byKey && t.byKey[id] in t.live && t.live[t.byKey[id]] == id
    ensures t.byKey[id] in LiveFor(ArmAsWritten(t, id), id)
    ensures t.next in LiveFor(ArmAsWritten(t, id), id)
    ensures t.byKey[id] != t.next
    ensures !Tidy(ArmAsWritten(t, id))
  {
    var r := ArmAsWritten(t, id);
    var prev := t.byKey[id];
    assert prev in r.live && r.live[prev] == id;
    assert r.byKey[id] == t.next != prev;
  }
}

=== FILE: uuid_scanner.dfy ===
/**
 * The stand-alone scanner app (UUIDDDD): a dictionary of every advertising
 * peripheral, keyed by identifier and keeping only the first sighting, shown
 * strongest signal first and narrowed by a search text.
 */
module UuidScanner {
  import opened Wrappers
  import opened Text
  import opened Ordering
  import opened Timers

  /** What is kept of a sighting: name, signal strength and advertised service UUIDs. */
  datatype ScanRecord = ScanRecord(name: string, rssi: int, services: seq<string>)

  /** Identifier and record pairs, as the sorted dictionary yields them. */
  type Listing = seq<(DeviceId, ScanRecord)>

  /** The scan call: every service, duplicates not reported. */
  datatype ScanAction = ScanForAllPeripherals(allowDuplicates: bool)

  const UnknownName := "未知設備"
  const InitialStatus := "未連接"
  const RadioOffStatus := "❌ 藍牙未開啟"

  function RssiOf(e: (DeviceId, ScanRecord)): int { e.1.rssi }

  function IdOf(e: (DeviceId, ScanRecord)): DeviceId { e.0 }

  /** No identifier appears twice. */
  ghost predicate DistinctIds(s: Listing)
  {
    DistinctKeys(s, IdOf)
  }

  /** The dictionary's pairs in some order (Swift does not fix the order of a dictionary). */
  ghost function Entries(m: map<DeviceId, ScanRecord>): (r: Listing)
    ensures |r| == |m|
    ensures forall e :: e in r <==> e.0 in m && m[e.0] == e.1
    ensures DistinctIds(r)
    decreases |m|
  {
    if m.Keys == {} then []
    else
      var k :| k in m.Keys;
      var rest := m - {k};
      assert m.Keys == rest.Keys + {k};
      [(k, m[k])] + Entries(rest)
  }

  /** The search matches when the lowercased name contains the lowercased search text. */
  function Matches(rec: ScanRecord, filterText: string): bool
  {
    Contains(LowerStr(rec.name), LowerStr(filterText))
  }

  /** `filter { … }`: the pairs whose name matches, in their order. */
  function Keep(s: Listing, filterText: string): (r: Listing)
    ensures forall e :: e in r <==> e in s && Matches(e.1, filterText)
    ensures multiset(r) <= multiset(s)
  {
    if s == [] then []
    else
      assert s == [s[0]] + s[1..];
      var rest := Keep(s[1..], filterText);
      if Matches(s[0].1, filterText) then [s[0]] + rest else rest
  }

  /** Filtering keeps the order: a sorted listing stays sorted. */
  lemma {:induction false} KeepKeepsOrder(s: Listing, filterText: string)
    requires SortedDesc(s, RssiOf)
    ensures SortedDesc(Keep(s, filterText), RssiOf)
  {
    if s != [] {
      KeepKeepsOrder(s[1..], filterText);
      var rest := Keep(s[1..], filterText);
      if Matches(s[0].1, filterText) {
        assert forall k :: 0 <= k < |rest| ==> rest[k] in s[1..];
        assert forall k :: 0 <= k < |rest| ==> RssiOf(rest[k]) <= RssiOf(s[0]);
      }
    }
  }

  /** `filteredDevices`: sorted strongest first, then narrowed by the search text unless it is empty. */
  ghost function Filtered(m: map<DeviceId, ScanRecord>, filterText: string): Listing
  {
    var sorted := SortDesc(Entries(m), RssiOf);
    if filterText == [] then sorted else Keep(sorted, filterText)
  }

  /**
   * The list shown is sorted by signal strength, strongest first, names each
   * device once, and holds exactly the stored devices whose name contains
   * the search text, ignoring case; with an empty search text, all of them.
   */
  lemma FilteredDevicesSpec(m: map<DeviceId, ScanRecord>, filterText: string)
    ensures SortedDesc(Filtered(m, filterText), RssiOf)
    ensures DistinctIds(Filtered(m, filterText))
    ensures forall e :: e in Filtered(m, filterText) <==>
      e.0 in m && m[e.0] == e.1 && (filterText == [] || Matches(e.1, filterText))
    ensures filterText == [] ==> |Filtered(m, filterText)| == |m|
  {
    var entries := Entries(m);
    var sorted := SortDesc(entries, RssiOf);
    DistinctKeysOfSubMultiset(entries, sorted, IdOf);
    if filterText != [] {
      KeepKeepsOrder(sorted, filterText);
      DistinctKeysOfSubMultiset(sorted, Keep(sorted, filterText), IdOf);
    }
    assert forall e :: e in sorted <==> e in multiset(sorted);
    assert forall e :: e in entries <==> e in multiset(entries);
  }

  class BluetoothManager {
    var discoveredDevices: map<DeviceId, ScanRecord>
    var connectionStatus: string
    var filterText: string
    ghost var actions: seq<ScanAction>

    constructor()
      ensures discoveredDevices == map[] && connectionStatus == InitialStatus && filterText == "" && actions == []
    {
      discoveredDevices := map[];
      connectionStatus := InitialStatus;
      filterText := "";
      actions := [];
    }

    /** `startScanning`: the dictionary is emptied and a scan over all services begins. */
    method StartScanning()
      modifies this
      ensures discoveredDevices == map[] && actions == old(actions) + [ScanForAllPeripherals(false)]
      ensures connectionStatus == old(connectionStatus) && filterText == old(filterText)
    {
      discoveredDevices := map[];
      actions := actions + [ScanForAllPeripherals(false)];
    }

    /**
     * `centralManagerDidUpdateState`: a powered-on radio starts a scan; any
     * other state only shows that Bluetooth is off.
     */
    method CentralManagerDidUpdateState(poweredOn: bool)
      modifies this
      ensures poweredOn ==>
        discoveredDevices == map[] && actions == old(actions) + [ScanForAllPeripherals(false)] &&
        connectionStatus == old(connectionStatus)
      ensures !poweredOn ==>
        connectionStatus == RadioOffStatus && discoveredDevices == old(discoveredDevices) && actions == old(actions)
      ensures filterText == old(filterText)
    {
      if poweredOn {
        StartScanning();
      } else {
        connectionStatus := RadioOffStatus;
      }
    }

    /**
     * `didDiscover`: the first sighting of an identifier is stored, under
     * "未知設備" when the peripheral has no name; later sightings change
     * nothing, not even the signal strength.
     */
    method DidDiscover(id: DeviceId, name: Option<string>, services: seq<string>, rssi: int)
      modifies this
      ensures id in old(discoveredDevices) ==> discoveredDevices == old(discoveredDevices)
      ensures id !in old(discoveredDevices) ==>
        discoveredDevices == old(discoveredDevices)[id := ScanRecord(if name.Some? then name.value else UnknownName, rssi, services)]
      ensures connectionStatus == old(connectionStatus) && filterText == old(filterText) && actions == old(actions)
    {
      var deviceName := match name case Some(n) => n case None => UnknownName;
      if id !in discoveredDevices {
        discoveredDevices := discoveredDevices[id := ScanRecord(deviceName, rssi, services)];
      }
    }

    /** `filteredDevices`: the stored devices matching the search text, strongest first. */
    ghost function FilteredDevices(): (r: Listing)
      reads this
      ensures SortedDesc(r, RssiOf) && DistinctIds(r)
      ensures forall e :: e in r <==>
        e.0 in discoveredDevices && discoveredDevices[e.0] == e.1 && (filterText == [] || Matches(e.1, filterText))
    {
      FilteredDevicesSpec(discoveredDevices, filterText);
      Filtered(discoveredDevices, filterText)
    }
  }
}

=== FILE: wrappers.dfy ===
/** Optional values and results, standing in for Swift optionals and `throws`. */
module Wrappers {

  datatype Option<+T> = None | Some(value: T)

  datatype Result<+T, +E> = Ok(value: T) | Err(error: E)
}
